=== FILE: README.md ===
# Plugin.NFC, Android side: record mapping, write controllers and mode flags

This project models the decision logic of `NFCImplementation`, the Android
implementation of the Plugin.NFC library. Android's NFC classes are not
modelled. A tag is an abstract `Tag` value. It records what `Ndef.Get`,
`NdefFormatable.Get` and `MifareUltralight.Get` return and what the tech list
names. Every call that can fail on a real tag gets its outcome from a `TagIo`
parameter. The model has six parts:

- **Record mapping** (`RecordMapping`). `GetAndroidNdefRecord` turns a logical
  `NFCNdefRecord` into a request for an Android record: text, MIME, URI,
  external or empty. Null records and the Unknown, Unchanged and Reserved formats
  give no record. For a text record, a null or blank language code is replaced by
  the configured default, and only its first two characters are used. A code
  shorter than two characters makes `Substring(0, 2)` throw, so it is modelled as
  an error, not as a precondition. The record-building loop keeps the records
  that map, in their input order, and stops at the first record that throws.
- **Write or clear** (`WriteClear`). `WriteOrClearMessage` runs its checks in
  this order: missing tag, missing tag info, no Ndef, read-only, capacity. It then
  connects and writes the built message, or the empty message when clearing. It
  locks the tag only when writing with the read-only flag set. Once it reaches
  the Ndef block it always releases the held tag and raises the disconnected
  notification once. Any error leaves write mode. A success does not.
- **Write and format** (`WriteFormat`). `WriteMessageAndFormat` takes one of
  three paths: the not-compliant error, the format path, or the Ndef path.
  - When building the message throws, or when formatting throws anything other
    than a tag-lost or format exception, the format path falls back to closing
    NdefFormatable and, on a tag that lists MifareUltralight, to an Ultralight
    bootstrap. Every failure inside the
    bootstrap is swallowed. The bootstrap's retry takes `Ndef.Get` of the same
    tag, which gives no handle on this path, so it never writes (see Findings).
  - The Ndef path returns quietly when the tag is not writable. Its finally
    clause raises the connected notification a second time.
  - This operation never releases the held tag and never leaves write mode.
- **Mode flags and dispatch** (`ModeFlags`). `StartPublishing` enters write mode
  only when writing is supported. `StopPublishing` and `StopListening` leave write
  mode, and `StopListening` also stops listening. `HandleNewIntent` replaces the
  held tag with the one a discovery intent carries. It then raises tag-discovered,
  with the formatting flag, in write mode, and message-received otherwise.
- **Status listener** (`StatusListener`). The `OnNfcStatusChanged` accessors
  register the broadcast receiver when the subscriber list goes from empty to
  non-empty. They unregister it when the list goes from non-empty to empty.
- **Shared types** (`NfcTypes`). Records, tags, call outcomes, notifications
  and the mode state.

Each call returns the state after it, the notifications raised in order, and
the calls made on the tag in order. It also returns a typed failure, with one
constructor for each way the source throws.

The code does the following, which a reader might not expect:

- A second discovery while a tag is held replaces the held tag. A discovery
  intent with no tag drops it.
- `WriteMessageAndFormat` does not return to an idle state. Its errors do not
  leave write mode.
- Every failure in the Ultralight bootstrap, including its final write, is
  swallowed, not reported.
- On the format path, a tag that does not list MifareUltralight, whose format
  throws an I/O or other exception, is only closed. The call then returns
  normally with nothing written.
- A tag with neither Ndef nor NdefFormatable raises the configured not-compliant
  message.
- After a successful write, `WriteOrClearMessage` reads the message back from
  the tag for the published notification. That read can throw, and the call
  then fails although the message was written.

## Model

| member | source | states |
|---|---|---|
| RecordMapping.TextLanguage | src/Plugin.NFC/Android/NFC.android.cs:679-681 | The language of a text record has two characters. It is the first two characters of the record's code, or of the configured default when the code is null or white space. It is an error exactly when that code has fewer than two characters. |
| RecordMapping.LanguageTruncationIdempotent | src/Plugin.NFC/Android/NFC.android.cs:679-681 | Passing a language the mapping produced back in as a code gives the same language, unless the two characters are blank. |
| RecordMapping.BlankPrefixIsKept | src/Plugin.NFC/Android/NFC.android.cs:680-681 | The blank test looks at the whole code, but the cut keeps only its first two characters. So "  fr" gives the blank language "  ", while "  " itself gives the default. |
| RecordMapping.EmptyRecord | src/Plugin.NFC/Android/NFC.android.cs:709-713 | The empty record has type name format Empty and an empty type, id and payload. |
| RecordMapping.EmptyMessage | src/Plugin.NFC/Android/NFC.android.cs:719-724 | The empty message holds exactly one record, the empty record. |
| RecordMapping.AndroidRecordOf | src/Plugin.NFC/Android/NFC.android.cs:670-703 | A record is produced exactly for non-null records of format WellKnown, Mime, Uri, External or Empty. The mapping fails exactly for a WellKnown record whose effective language code is too short. A produced record is of the kind the format asks for and carries the record's payload, MIME type, or external domain and type. |
| RecordMapping.EmptyFormatDiscardsPayload | src/Plugin.NFC/Android/NFC.android.cs:692-694 | An Empty logical record maps to the empty record whatever payload it holds. |
| RecordMapping.MapRecords | src/Plugin.NFC/Android/NFC.android.cs:474-480 | Building succeeds exactly when every record maps. It then yields at most one record per input, and no record exactly when none is mappable. On failure it reports the error of the first record that fails, and every earlier record maps. |
| RecordMapping.MapRecordsKeepsOrder | src/Plugin.NFC/Android/NFC.android.cs:474-480 | The built records are the order-preserving subsequence of the mappable inputs. The k-th built record is the mapping of the k-th mappable input. |
| RecordMapping.FailurePropagates | src/Plugin.NFC/Android/NFC.android.cs:474-480 | Once a prefix of the records fails to build, the whole list fails with the same error. |
| RecordMapping.BuildRecords | src/Plugin.NFC/Android/NFC.android.cs:474-480 | The imperative loop, which stops at the first record that throws, computes the same result as the functional definition. |
| RecordMapping.BuiltMessage | src/Plugin.NFC/Android/NFC.android.cs:397-404 | Building a message from a tag info gives the built records if there are any. It fails when no record survives, when a language code is too short, or when the tag info is null. |
| ModeFlags.DisablePublishing | src/Plugin.NFC/Android/NFC.android.cs:605-609 | Write mode and format mode end. Listening and the held tag are unchanged. |
| ModeFlags.StopPublishing | src/Plugin.NFC/Android/NFC.android.cs:193 | StopPublishing is DisablePublishing under its public name. |
| ModeFlags.StartPublishing | src/Plugin.NFC/Android/NFC.android.cs:181-188 | When writing is supported, write mode is on and the formatting flag equals the clear argument. Otherwise nothing changes. |
| ModeFlags.StopListening | src/Plugin.NFC/Android/NFC.android.cs:167-175 | Listening, write mode and format mode end, the held tag stays, and listening-status false is announced. |
| ModeFlags.HandleNewIntent | src/Plugin.NFC/Android/NFC.android.cs:551-574 | A null or non-discovery intent changes nothing. A discovery intent replaces the held tag, null included. A carried tag raises tag-discovered, with the formatting flag, in write mode, and message-received otherwise. |
| ModeFlags.PublishingRoutesDiscoveryToWrite | src/Plugin.NFC/Android/NFC.android.cs:556-571 | After StartPublishing on a device that can write, a discovered tag raises tag-discovered with the requested formatting flag. |
| ModeFlags.UnsupportedPublishingKeepsReading | src/Plugin.NFC/Android/NFC.android.cs:183-184 | On a device that cannot write, StartPublishing leaves a reading plugin reading. |
| ModeFlags.StoppingRoutesDiscoveryToRead | src/Plugin.NFC/Android/NFC.android.cs:167-175 | After StopListening or StopPublishing, a discovered tag raises message-received. |
| ModeFlags.DiscoveryReplacesHeldTag | src/Plugin.NFC/Android/NFC.android.cs:556-559 | A discovery while a tag is held does not fail. It replaces the held tag, and a discovery without a tag drops it. |
| WriteClear.Caught | src/Plugin.NFC/Android/NFC.android.cs:502-517 | A platform exception in the write block becomes a tag-lost, I/O, format or generic tag error exactly when it is of that class, and carries the exception's message. |
| WriteClear.LockTag | src/Plugin.NFC/Android/NFC.android.cs:732-752 | The MakeReadOnly helper calls Ndef.MakeReadOnly exactly when the tag can be made read-only, and otherwise reports false. It reports true exactly when that call returned true, and throws exactly what that call throws. |
| WriteClear.NdefAttempt | src/Plugin.NFC/Android/NFC.android.cs:456-517 | Inside the write block: a read-only tag and a tag too small fail before any call on the tag. Ndef is connected exactly when both checks pass and Connect returns, and it is the first call. The block succeeds exactly when every step does, and then raises connected and published with the written message. It writes only the outgoing message and never closes. Once the write returns, it locks exactly when asked to write (not clear) with the read-only flag on a tag that can be made read-only. Each step fails in its own way: a throwing connect, write, lock or read-back gives that exception mapped by its catch clause. No surviving record gives the write error, and a short language code gives the language error. |
| WriteClear.OutgoingMessage | src/Plugin.NFC/Android/NFC.android.cs:467-484 | A clear writes the empty message. Otherwise the built records are written when there are any, there is no message when none survives, and a bad language code is an error. A message is never empty. |
| WriteClear.WriteOrClearMessage | src/Plugin.NFC/Android/NFC.android.cs:443-545 | The errors take precedence in this order: missing tag, missing tag info, not compliant, read-only, capacity. Once the Ndef block is entered, the tag is released and disconnected is raised exactly once, as the last notification. Before it, the tag stays held and nothing is raised. Any error leaves write mode, and success keeps it. Success holds exactly when each step succeeds, the read-back of the written message included, and a lock that returns false still counts as success. Inside the write block the failure is the block's own. When no record survives, the call raises the write error and writes nothing. A write that returns on a lockable tag, with the read-only flag set and not clearing, is followed by the lock. |
| WriteClear.LostReadBackFailsTheWrite | src/Plugin.NFC/Android/NFC.android.cs:486-517 | Take a call that would succeed, and let the read-back of the message throw. The message is still written, but the call fails with the read-back's exception, raises only connected and disconnected, and leaves write mode. |
| WriteClear.NoTagCallBeforeChecksPass | src/Plugin.NFC/Android/NFC.android.cs:447-462 | When a check fails, no call is made on the tag. When no message can be built, nothing is written. |
| WriteClear.ClosesWhatItConnects | src/Plugin.NFC/Android/NFC.android.cs:518-525 | Once Ndef.Connect has returned, the last call on the tag is Ndef.Close. |
| WriteClear.PublishesWhatItWrites | src/Plugin.NFC/Android/NFC.android.cs:486-498 | A success raises connected, published with the written message, and disconnected. A clear writes only the empty message, and any other write only the non-empty built records. |
| WriteClear.LocksOnlyWhenAsked | src/Plugin.NFC/Android/NFC.android.cs:490-494 | Locking is attempted only when writing, not clearing, with the read-only flag set. |
| WriteClear.ClearMessage | src/Plugin.NFC/Android/NFC.android.cs:206 | A clear never locks the tag. It writes only the record with type name format Empty and empty type, id and payload, and a successful clear publishes the empty message. |
| WriteClear.LockRefusalIsNotFailure | src/Plugin.NFC/Android/NFC.android.cs:490-494 | A lock that returns false gives the same outcome as a lock that succeeds. |
| WriteClear.FailedWriteReturnsToReading | src/Plugin.NFC/Android/NFC.android.cs:541-543 | After a failed write or clear, the next discovered tag raises message-received. |
| WriteClear.SuccessfulWriteStaysArmed | src/Plugin.NFC/Android/NFC.android.cs:486-498 | After a successful write in write mode, the next discovered tag is again offered for writing. |
| WriteFormat.CaughtWrite | src/Plugin.NFC/Android/NFC.android.cs:410-426 | An exception from the Ndef write or lock becomes a tag-lost or format error exactly when it is of that class, with its message. Any other exception, I/O included, becomes the generic write error that carries it. |
| WriteFormat.RetryThroughNdef | src/Plugin.NFC/Android/NFC.android.cs:328-351 | With no Ndef handle the retry makes no call. With a handle it connects first, and when the connect returns and the message builds, it writes the built message, and locks it when asked and the write returned. It writes nothing else, never formats, and never locks unasked. |
| WriteFormat.UltralightFallback | src/Plugin.NFC/Android/NFC.android.cs:291-355 | The bootstrap runs only on a tag that lists MifareUltralight and gives a handle. It starts with the page writes and the close of the Ultralight handle. On a tag without Ndef it never connects, writes or locks through Ndef. It writes only the built message and never formats. |
| WriteFormat.IntendedUltralightFallback | src/Plugin.NFC/Android/NFC.android.cs:322-346 | The bootstrap as intended, with the Ndef handle of the formatted tag: after the page writes and the close, it connects through Ndef. When that connect returns and the message builds, it writes the built message, and locks it when asked. |
| WriteFormat.Fallback | src/Plugin.NFC/Android/NFC.android.cs:283-364 | The fallback closes the NdefFormatable handle first. Only that close can fail the call, and the bootstrap follows when the close succeeds. |
| WriteFormat.FormatPath | src/Plugin.NFC/Android/NFC.android.cs:231-373 | With no NdefFormatable handle the result is not-compliant. A failed connect is the missing-tag error. Otherwise connected and then disconnected are raised. Only the missing-handle, failed-connect, interrupted-format and failed-close errors can result. A format that returns succeeds. A tag-lost or format exception from it gives the interrupted-format error with the exception's message. When the message cannot be built, or the format throws anything else, the call fails exactly when closing NdefFormatable throws. Once the connect returns and the message builds, the second call formats with the built message, read-only exactly as asked. |
| WriteFormat.FormatPathWrites | src/Plugin.NFC/Android/NFC.android.cs:255-351 | The format path writes and formats only with the built message and formats read-only exactly as asked. It locks only when asked, and on a tag without Ndef it never connects, writes or locks through Ndef. |
| WriteFormat.NdefWrite | src/Plugin.NFC/Android/NFC.android.cs:395-427 | A message that cannot be built is a tag error and nothing is written. Otherwise the built message is written first, and the tag is locked exactly when asked after a successful write. The write succeeds exactly when the message builds, the write returns, and the lock, if asked for, does not throw. A throwing write or lock fails with that exception mapped by the catch clauses. |
| WriteFormat.NdefPath | src/Plugin.NFC/Android/NFC.android.cs:374-434 | A failed connect is "No Tag nearby". A tag that is not writable is closed with no error and no write. Otherwise connected is raised twice and the last call is Close. Disconnected is never raised. On a writable tag the path fails exactly as the write block does. When the message builds there, the second call writes it, and the tag is locked exactly when the write returns and the read-only flag is set. |
| WriteFormat.WriteMessageAndFormat | src/Plugin.NFC/Android/NFC.android.cs:209-435 | The state is unchanged. The branches are: no tag gives missing-tag; no Ndef and no NdefFormatable gives not-compliant; no Ndef with NdefFormatable takes the format path; Ndef takes the Ndef path, including its quiet return on a tag that is not writable. On the Ndef path the call fails exactly as the write block does. On the format path, a format that returns succeeds, a tag-lost or format exception gives the interrupted-format error, and otherwise the call fails exactly when closing NdefFormatable throws. Once a connect returns and the message builds, the call formats with it on the format path, read-only as asked. On a writable Ndef tag it writes the message there, and locks exactly when the write returns and the read-only flag is set. |
| WriteFormat.PublishMessage | src/Plugin.NFC/Android/NFC.android.cs:200 | Publishing leaves the state as it was, even on failure. |
| WriteFormat.WritesOnlyBuiltMessage | src/Plugin.NFC/Android/NFC.android.cs:257-264 | Every message written or formatted with is the one built from the tag info. |
| WriteFormat.LocksOnlyWhenAsked | src/Plugin.NFC/Android/NFC.android.cs:267-270 | The tag is locked only when the read-only flag is set, and every format call passes that flag as its read-only argument. |
| WriteFormat.FallbackFailuresAreSwallowed | src/Plugin.NFC/Android/NFC.android.cs:316-351 | The outcomes of the Ndef connect, write and lock after the bootstrap change neither what the call throws nor what it raises. |
| WriteFormat.FallbackNeverWritesThroughNdef | src/Plugin.NFC/Android/NFC.android.cs:219-330 | When the format path is taken (no Ndef handle at line 219), the call never connects, writes or locks through Ndef. |
| WriteFormat.FallbackCannotCompleteWrite | src/Plugin.NFC/Android/NFC.android.cs:283-351 | Take an Ultralight tag whose format throws an I/O error, where every later step would succeed. The call reports no error and has attempted the format, yet it never writes the built message through Ndef. |
| WriteFormat.IntendedFallbackCompletesWrite | src/Plugin.NFC/Android/NFC.android.cs:322-346 | On such a tag, the intended bootstrap writes the built message when the connect returns, and the bootstrap as written does not. |
| WriteFormat.UnbuildableMessageIsSilentOnFormatPath | src/Plugin.NFC/Android/NFC.android.cs:255-351 | On the format path, a message that cannot be built ends in the fallback, where every failure is swallowed. The call reports no error and writes nothing. |
| StatusListener.Subscribe | src/Plugin.NFC/Android/NFC.android.cs:765-773 | Adding a subscriber adds one occurrence, and adding null adds nothing. The receiver is registered exactly when the list was empty and a handler is added. Adding never unregisters, and it keeps the receiver registered exactly while someone subscribes. |
| StatusListener.Unsubscribe | src/Plugin.NFC/Android/NFC.android.cs:774-782 | Removing a subscriber removes one occurrence. The receiver is unregistered exactly when the list goes from non-empty to empty, which from a consistent state means the only subscriber leaves. Removing never registers. |
| StatusListener.SubscribeThenUnsubscribeRestores | src/Plugin.NFC/Android/NFC.android.cs:763-783 | Removing a handler right after adding it restores the subscribers and the receiver. |
| StatusListener.Replay | src/Plugin.NFC/Android/NFC.android.cs:763-783 | Over any sequence of adds and removes, the receiver stays registered exactly while someone subscribes. Registrations minus unregistrations equal the change in registration. |
| StatusListener.RegisteredOnlyWhileSubscribed | src/Plugin.NFC/Android/NFC.android.cs:763-783 | From the start, registrations minus unregistrations is always 0 or 1, and it is 1 exactly while someone subscribes. |

## Findings

| source | as written | input that shows it | evidently intended | confidence | as-written member | corrected member |
|---|---|---|---|---|---|---|
| src/Plugin.NFC/Android/NFC.android.cs:328-346 | After the Ultralight bootstrap, the retry takes `Ndef.Get(_currentTag)` on the same tag object. The format path is taken only when that call gave null at line 219, and the tag's technologies do not change, so it gives null again. `ndef.Connect()` throws, the empty catch swallows it, and nothing is written. | A MIFARE Ultralight tag without Ndef that lists NdefFormatable, whose format throws an IOException, with every later step succeeding. The call returns normally and the message is not on the tag. | Write the built message through the Ndef handle of the freshly formatted tag, and lock it when asked. | medium, not executed | WriteFormat.FallbackCannotCompleteWrite | WriteFormat.IntendedUltralightFallback |

`WriteMessageAndFormat` keeps the code's behaviour through `WriteFormat.UltralightFallback`. The intended bootstrap is stated and proved separately in `WriteFormat.IntendedFallbackCompletesWrite`.

## Left out

- StartListening, HandleOnResume, IsAvailable, IsEnabled, SetConfiguration and the constructor: intent, pending-intent and foreground-dispatch plumbing on the Android adapter.
- OnMessageReceived add/remove and RemoveAllDelegates: bookkeeping for C# event delegates. Notifications are "raised" whether or not anyone subscribes, and exceptions thrown by subscribers are not modelled.
- GetTagInfo and GetRecords: they copy fields from Android objects. A notification carries the tag, which stands for its snapshot. The read-back of `ndef.NdefMessage` is modelled as a call that may throw. When it returns, the published notification carries the written message, not the message read back.
- NFCUtils.GetSize and NFCUtils.IsWritingSupported are not part of this model. They are parameters: the function `sizeOf` and the flag `writingSupported`.
- The Android record factories (`NdefRecord.CreateTextRecord`, `CreateMime`, `CreateUri`, `CreateExternal`) and their argument checks are left out. A request records the arguments passed, and exceptions those factories would throw are not modelled. UTF-8 decoding of payloads is also left out, because it belongs to the runtime.
- The NdefMessage constructor is taken to reject an empty record array, which is documented Android behaviour. That is the only property of it the model uses.
- Exception message text is not built. Each failure constructor names the catch clause and the configured message it would carry.
- The Ultralight bootstrap's two page writes (the capability container and the empty NDEF TLV bytes) are hardware constants. They are one abstract `Bootstrap` call whose outcome is ignored.
- The broadcast receiver's OnReceive, its 1500 ms delay and the status callback are asynchronous plumbing. So are a null context and the exception UnRegisterListener rethrows when the platform refuses to unregister.
- `Console.WriteLine("Cannot lock tag")` is logging only.
- `Close()` throwing inside a finally clause is not modelled. `ndef.IsConnected` is read as "Connect returned", so a tag lost mid-write is still closed.
- MakeReadOnly's connect-if-not-connected branch is left out, because the write block calls it only on a connected tag.
- NFCNdefTypeFormat values outside the eight named formats are left out. The source's `default` branch treats them like Unknown.
- A null payload, and a null configured default language code, are left out. Both throw in `Encoding.GetString` or `Substring`. Configuration fields other than the default language code are also left out.
- RecordMapping.TextLanguage: counts a code's length in Unicode scalar values. .NET's `Length` and `Substring(0, 2)` count UTF-16 code units. For a code with a character outside the Basic Multilingual Plane the two differ: a single such character is accepted by the source and is an error in the model. Strings are not modelled as UTF-16.
- A `TagInfo` whose `Records` is null is left out. The source reads `Records.Length` unguarded, and `GetTagInfo` leaves `Records` unset for a tag that holds no message. Records are always a sequence here, so the resulting null-reference failure is not modelled.
- ModeFlags.StopListening: does not model `DisableForegroundDispatch` throwing when the activity is not resumed. In that case the source keeps listening and raises nothing. The model has no failure outcome for StopListening.
- WriteClear.NoTagCallBeforeChecksPass, WriteClear.ClosesWhatItConnects, WriteClear.PublishesWhatItWrites, WriteClear.LocksOnlyWhenAsked: these restate parts of what WriteOrClearMessage promises. They are separate lemmas so that each proof stays small.

=== FILE: mode_flags.dfy ===
/**
  The plugin's mode flags and intent dispatch: StartPublishing,
  StopPublishing/DisablePublishing, StopListening and HandleNewIntent, as
  functions from the state before to the state after and the notifications
  raised on the way.
 */
module ModeFlags {
  import opened NfcTypes

  /** The intent actions HandleNewIntent tells apart. */
  datatype IntentAction = ActionTagDiscovered | ActionNdefDiscovered | OtherAction(name: string)

  /** An Android intent: its action and the tag it carries as its EXTRA_TAG extra, if any. */
  datatype Intent = Intent(action: IntentAction, extraTag: Option<Tag>)

  datatype Transition = Transition(state: NfcState, events: seq<Event>)

  /** True for a non-null intent announcing a discovered tag. */
  predicate IsDiscovery(intent: Option<Intent>)
  {
    intent.Some? && (intent.value.action == ActionTagDiscovered || intent.value.action == ActionNdefDiscovered)
  }

  /** DisablePublishing: leave write mode. */
  function DisablePublishing(s: NfcState): (r: NfcState)
    ensures !r.isWriting && !r.isFormatting
    ensures r.isListening == s.isListening && r.currentTag == s.currentTag
  {
    s.(isWriting := false, isFormatting := false)
  }

  /** StopPublishing: the public name of DisablePublishing. */
  function StopPublishing(s: NfcState): (r: NfcState)
    ensures !r.isWriting && !r.isFormatting
    ensures r.isListening == s.isListening && r.currentTag == s.currentTag
  {
    DisablePublishing(s)
  }

  /**
    StartPublishing: enter write mode, formatting when `clearMessage`, but only
    when the device supports writing; otherwise nothing changes.
   */
  function StartPublishing(s: NfcState, writingSupported: bool, clearMessage: bool): (r: NfcState)
    ensures writingSupported ==> r.isWriting && r.isFormatting == clearMessage
    ensures !writingSupported ==> r == s
    ensures r.isListening == s.isListening && r.currentTag == s.currentTag
  {
    if !writingSupported then s
    else s.(isWriting := true, isFormatting := clearMessage)
  }

  /**
    StopListening: leave write mode, stop listening and announce it. The held
    tag, if any, stays held.
   */
  function StopListening(s: NfcState): (r: Transition)
    ensures !r.state.isListening && !r.state.isWriting && !r.state.isFormatting
    ensures r.state.currentTag == s.currentTag
    ensures r.events == [ListeningStatusChanged(false)]
  {
    var disabled := DisablePublishing(s);
    Transition(disabled.(isListening := false), [ListeningStatusChanged(false)])
  }

  /**
    HandleNewIntent: a discovery intent replaces the held tag with the one it
    carries (null included). A carried tag is announced as discovered for
    writing, with the formatting flag, in write mode, and as a received
    message otherwise. Any other intent changes nothing.
   */
  function HandleNewIntent(s: NfcState, intent: Option<Intent>): (r: Transition)
    ensures !IsDiscovery(intent) ==> r == Transition(s, [])
    ensures IsDiscovery(intent) ==>
              && r.state == s.(currentTag := intent.value.extraTag)
              && (intent.value.extraTag.None? ==> r.events == [])
              && (intent.value.extraTag.Some? && s.isWriting ==>
                    r.events == [TagDiscovered(intent.value.extraTag.value, s.isFormatting)])
              && (intent.value.extraTag.Some? && !s.isWriting ==>
                    r.events == [MessageReceived(intent.value.extraTag.value)])
  {
    if !IsDiscovery(intent) then Transition(s, [])
    else
      var held := s.(currentTag := intent.value.extraTag);
      match intent.value.extraTag
      case None => Transition(held, [])
      case Some(tag) =>
        if s.isWriting then Transition(held, [TagDiscovered(tag, s.isFormatting)])
        else Transition(held, [MessageReceived(tag)])
  }

  /** A discovery intent for `tag`. */
  function Discovery(tag: Tag): (intent: Option<Intent>)
  {
    Some(Intent(ActionTagDiscovered, Some(tag)))
  }

  /** After StartPublishing on a device that can write, a discovered tag is offered for writing with the requested mode. */
  lemma PublishingRoutesDiscoveryToWrite(s: NfcState, clearMessage: bool, tag: Tag)
    ensures HandleNewIntent(StartPublishing(s, true, clearMessage), Discovery(tag)).events
            == [TagDiscovered(tag, clearMessage)]
  {
  }

  /** On a device that cannot write, StartPublishing leaves a reading plugin reading. */
  lemma UnsupportedPublishingKeepsReading(s: NfcState, clearMessage: bool, tag: Tag)
    requires !s.isWriting
    ensures HandleNewIntent(StartPublishing(s, false, clearMessage), Discovery(tag)).events
            == [MessageReceived(tag)]
  {
  }

  /** After StopListening or StopPublishing, a discovered tag is read, whatever the mode was. */
  lemma StoppingRoutesDiscoveryToRead(s: NfcState, tag: Tag)
    ensures HandleNewIntent(StopListening(s).state, Discovery(tag)).events == [MessageReceived(tag)]
    ensures HandleNewIntent(StopPublishing(s), Discovery(tag)).events == [MessageReceived(tag)]
  {
  }

  /**
    A second discovery does not fail while a tag is held: the new tag replaces
    the old one, and a discovery intent without a tag drops the held one.
   */
  lemma DiscoveryReplacesHeldTag(s: NfcState, tag: Tag)
    requires s.currentTag.Some?
    ensures HandleNewIntent(s, Discovery(tag)).state.currentTag == Some(tag)
    ensures HandleNewIntent(s, Some(Intent(ActionNdefDiscovered, None))).state.currentTag.None?
  {
  }
}

=== FILE: nfc_types.dfy ===
/**
  Shared vocabulary of the Android NFC plugin model: the logical records the
  plugin's callers hand in, the abstract Android record requests they are
  turned into, an abstract tag with the technologies it exposes, the outcome of
  each call made on that tag, the notifications the plugin raises, and the
  mutable mode flags of the plugin, held here as an immutable state record.

  Every Android API (Ndef, NdefFormatable, MifareUltralight, NdefRecord,
  NdefMessage) is abstract: a tag is described by what those APIs would report,
  and every call that can fail is given its outcome as a parameter.
 */
module NfcTypes {

  datatype Option<+T> = None | Some(value: T)

  datatype Result<+T, +E> = Ok(value: T) | Err(error: E)

  newtype byte = x: int | 0 <= x < 256

  /** The plugin's NFCNdefTypeFormat: which kind of NDEF record a logical record describes. */
  datatype TypeFormat = Empty | WellKnown | Mime | Uri | External | Unknown | Unchanged | Reserved

  /**
    The plugin's NFCNdefRecord. Reference-typed fields of the C# class that may
    be null are `Option`s; the payload is a byte sequence.
   */
  datatype NfcNdefRecord = NfcNdefRecord(
    typeFormat: TypeFormat,
    mimeType: Option<string>,
    uri: Option<string>,
    externalDomain: Option<string>,
    externalType: Option<string>,
    languageCode: Option<string>,
    payload: seq<byte>)

  /** The part of ITagInfo a write reads: its records, each of which may be null. */
  datatype TagInfo = TagInfo(records: seq<Option<NfcNdefRecord>>)

  /** Type name format 0 of the NDEF record header (Android's NdefRecord.TNF_EMPTY). */
  const TnfEmpty: int := 0

  /**
    An android.nfc.NdefRecord, described by the factory call that builds it.
    Text and URI records carry the UTF-8 bytes the plugin decodes before the
    call; the decoding itself belongs to the runtime.
   */
  datatype AndroidRecord =
    | TextRecord(language: string, utf8Text: seq<byte>)
    | MimeRecord(mimeType: Option<string>, payload: seq<byte>)
    | UriRecord(utf8Uri: seq<byte>)
    | ExternalRecord(domain: Option<string>, externalType: Option<string>, payload: seq<byte>)
    | RawRecord(tnf: int, recordType: seq<byte>, id: seq<byte>, payload: seq<byte>)

  /** An android.nfc.NdefMessage: its records in order. */
  type Message = seq<AndroidRecord>

  /** What the Ndef technology of a tag reports. */
  datatype NdefTech = NdefTech(isWritable: bool, maxSize: int, canMakeReadOnly: bool)

  /**
    An android.nfc.Tag. `ndef` is what Ndef.Get returns; `listsFormatable` and
    `listsUltralight` say whether the tech list names NdefFormatable and
    MifareUltralight; `formatable` and `ultralight` say whether
    NdefFormatable.Get and MifareUltralight.Get return a handle.
   */
  datatype Tag = Tag(
    id: seq<byte>,
    ndef: Option<NdefTech>,
    listsFormatable: bool,
    formatable: bool,
    listsUltralight: bool,
    ultralight: bool)

  /** The exception classes the plugin's catch clauses tell apart. */
  datatype ExnKind = TagLostKind | IoKind | FormatKind | OtherKind

  /** An exception raised by a platform call; its message is opaque. */
  datatype Exn = Exn(kind: ExnKind, message: string)

  /** Outcome of one platform call. */
  datatype Step = Done | Threw(e: Exn)

  /** Outcome of Ndef.MakeReadOnly: its boolean result, or an exception. */
  datatype LockStep = LockReturned(locked: bool) | LockThrew(e: Exn)

  /**
    The outcome of every platform call a write can make, one per call site.
    `readBack` is the read of Ndef.NdefMessage after a write, which talks to
    the tag again. `reconnect`, `fallbackWrite` and `fallbackLock` are the
    Ndef connect, write and lock after the Ultralight bootstrap; the
    bootstrap's own page writes have no outcome here, since every one of
    them is swallowed.
   */
  datatype TagIo = TagIo(
    ndefConnect: Step,
    ndefWrite: Step,
    ndefLock: LockStep,
    readBack: Step,
    formatConnect: Step,
    format: Step,
    formatClose: Step,
    reconnect: Step,
    fallbackWrite: Step,
    fallbackLock: Step)

  datatype Tech = NdefT | FormatableT | UltralightT

  /** A call attempted on the tag. */
  datatype TagAction =
    | Connect(tech: Tech)
    | Close(tech: Tech)
    | WriteNdef(message: Message)
    | Format(message: Message, readOnly: bool)
    | MakeReadOnly
    | ReadNdef
    | Bootstrap

  /**
    A notification the plugin raises. The tag-info payloads are the snapshot
    GetTagInfo takes of the tag; the snapshot is a function of the tag and is
    represented by the tag itself.
   */
  datatype Event =
    | TagConnected
    | TagDisconnected
    | MessagePublished(tag: Tag, message: Message)
    | TagDiscovered(tag: Tag, formatting: bool)
    | MessageReceived(tag: Tag)
    | ListeningStatusChanged(listening: bool)

  /** The one way GetAndroidNdefRecord fails: Substring(0, 2) on a language code shorter than two characters. */
  datatype MappingError = LanguageCodeTooShort(code: string)

  /**
    Why a message could not be built from a tag info: a record failed to map,
    no record survived (android.nfc.NdefMessage refuses an empty record array),
    or the tag info itself was null.
   */
  datatype BuildError = BadLanguageCode(code: string) | NoRecords | NoTagInfo

  /** The fields of the plugin's NfcConfiguration the modelled code reads. */
  datatype Configuration = Configuration(defaultLanguageCode: string)

  /** The plugin's mode fields: _isListening, _isWriting, _isFormatting and _currentTag. */
  datatype NfcState = NfcState(
    isListening: bool,
    isWriting: bool,
    isFormatting: bool,
    currentTag: Option<Tag>)

  /** True when no call in `actions` writes a message to the tag. */
  predicate NoWrite(actions: seq<TagAction>)
  {
    forall i :: 0 <= i < |actions| ==> !actions[i].WriteNdef? && !actions[i].Format?
  }

  /** True when `e` occurs exactly once in `events`, as the last one. */
  predicate EndsWithOnly(events: seq<Event>, e: Event)
  {
    && |events| > 0
    && events[|events| - 1] == e
    && forall i :: 0 <= i < |events| - 1 ==> events[i] != e
  }

  /** True when `e` does not occur in `events`. */
  predicate Lacks(events: seq<Event>, e: Event)
  {
    forall i :: 0 <= i < |events| ==> events[i] != e
  }
}

=== FILE: record_mapping.dfy ===
/**
  GetAndroidNdefRecord and the loops that call it: how a logical record becomes
  the request for an Android record, which records are dropped, and what the
  canonical empty record and empty message are.
 */
module RecordMapping {
  import opened NfcTypes

  /** The characters .NET's char.IsWhiteSpace accepts. */
  predicate IsWhiteSpace(c: char)
  {
    || c == ' ' || ('\t' <= c <= '\r')
    || c == '\U{0085}' || c == '\U{00A0}' || c == '\U{1680}'
    || ('\U{2000}' <= c <= '\U{200A}')
    || c == '\U{2028}' || c == '\U{2029}' || c == '\U{202F}' || c == '\U{205F}' || c == '\U{3000}'
  }

  /** string.IsNullOrWhiteSpace: null, empty, or white space only. */
  predicate IsNullOrWhiteSpace(s: Option<string>)
  {
    s.None? || forall i :: 0 <= i < |s.value| ==> IsWhiteSpace(s.value[i])
  }

  /**
    The language a text record is created with: the record's own code, or the
    configured default when the record's code is null or blank, cut to its
    first two characters.
   */
  function TextLanguage(code: Option<string>, defaultCode: string): (r: Result<string, MappingError>)
    ensures r.Ok? ==> |r.value| == 2
    ensures IsNullOrWhiteSpace(code) ==>
              (r.Ok? <==> |defaultCode| >= 2) && (r.Ok? ==> r.value == defaultCode[..2])
    ensures !IsNullOrWhiteSpace(code) ==>
              (r.Ok? <==> |code.value| >= 2) && (r.Ok? ==> r.value == code.value[..2])
    ensures r.Err? ==> |r.error.code| < 2
  {
    var effective := if IsNullOrWhiteSpace(code) then defaultCode else code.value;
    if |effective| < 2 then Err(LanguageCodeTooShort(effective)) else Ok(effective[..2])
  }

  /** Cutting a code again changes nothing, unless the two characters kept are blank. */
  lemma LanguageTruncationIdempotent(code: Option<string>, defaultCode: string, language: string)
    requires TextLanguage(code, defaultCode) == Ok(language)
    requires !IsNullOrWhiteSpace(Some(language))
    ensures TextLanguage(Some(language), defaultCode) == Ok(language)
  {
    assert language[..2] == language;
  }

  /**
    The blank test looks at the whole code but the cut keeps only its first two
    characters: a code starting with two blanks keeps them, and only an
    all-blank code falls back to the default.
   */
  lemma BlankPrefixIsKept(defaultCode: string)
    ensures TextLanguage(Some("  fr"), defaultCode) == Ok("  ")
    ensures |defaultCode| >= 2 ==> TextLanguage(Some("  "), defaultCode) == Ok(defaultCode[..2])
  {
    var code := "  fr";
    assert code[2] == 'f' && !IsWhiteSpace(code[2]);
    assert !IsNullOrWhiteSpace(Some(code));
    assert code[..2] == "  ";
    assert IsNullOrWhiteSpace(Some("  "));
  }

  /** True when GetAndroidNdefRecord builds a record for `record` (when it does not fail). */
  predicate Produces(record: Option<NfcNdefRecord>)
  {
    record.Some? && record.value.typeFormat in {WellKnown, Mime, Uri, External, Empty}
  }

  /** The empty record: type name format Empty with an empty type, id and payload. */
  function EmptyRecord(): (r: AndroidRecord)
    ensures r.RawRecord? && r.tnf == TnfEmpty
    ensures r.recordType == [] && r.id == [] && r.payload == []
  {
    RawRecord(TnfEmpty, [], [], [])
  }

  /** The empty message: the empty record and nothing else. */
  function EmptyMessage(): (m: Message)
    ensures |m| == 1 && m[0] == EmptyRecord()
  {
    [EmptyRecord()]
  }

  /** True when `a` is the Android record a logical record of this format asks for. */
  predicate Carries(record: NfcNdefRecord, a: AndroidRecord)
  {
    match record.typeFormat
    case WellKnown => a.TextRecord? && a.utf8Text == record.payload && |a.language| == 2
    case Mime => a == MimeRecord(record.mimeType, record.payload)
    case Uri => a == UriRecord(record.payload)
    case External => a == ExternalRecord(record.externalDomain, record.externalType, record.payload)
    case Empty => a == EmptyRecord()
    case _ => false
  }

  /**
    GetAndroidNdefRecord: the Android record for a logical one, `None` for a
    null record or one of format Unknown, Unchanged or Reserved, and an error
    when a text record's language code is too short to cut.
   */
  function AndroidRecordOf(record: Option<NfcNdefRecord>, cfg: Configuration): (r: Result<Option<AndroidRecord>, MappingError>)
    ensures r == Ok(None) <==> !Produces(record)
    ensures r.Err? <==>
              record.Some? && record.value.typeFormat == WellKnown &&
              TextLanguage(record.value.languageCode, cfg.defaultLanguageCode).Err?
    ensures r.Ok? && r.value.Some? ==> record.Some? && Carries(record.value, r.value.value)
    ensures r.Ok? && r.value.Some? && r.value.value.TextRecord? ==>
              Ok(r.value.value.language) == TextLanguage(record.value.languageCode, cfg.defaultLanguageCode)
  {
    if record.None? then Ok(None)
    else
      var rec := record.value;
      match rec.typeFormat
      case WellKnown =>
        (match TextLanguage(rec.languageCode, cfg.defaultLanguageCode)
         case Err(e) => Err(e)
         case Ok(language) => Ok(Some(TextRecord(language, rec.payload))))
      case Mime => Ok(Some(MimeRecord(rec.mimeType, rec.payload)))
      case Uri => Ok(Some(UriRecord(rec.payload)))
      case External => Ok(Some(ExternalRecord(rec.externalDomain, rec.externalType, rec.payload)))
      case Empty => Ok(Some(EmptyRecord()))
      case Unknown => Ok(None)
      case Unchanged => Ok(None)
      case Reserved => Ok(None)
  }

  /** An Empty logical record maps to the empty record whatever else it holds: its payload is discarded. */
  lemma EmptyFormatDiscardsPayload(record: NfcNdefRecord, cfg: Configuration)
    requires record.typeFormat == Empty
    ensures AndroidRecordOf(Some(record), cfg) == Ok(Some(EmptyRecord()))
  {
  }

  /**
    The record-building loop as a function: the records GetAndroidNdefRecord
    produces, in input order, or the error of the first record that fails.
   */
  function MapRecords(rs: seq<Option<NfcNdefRecord>>, cfg: Configuration): (r: Result<seq<AndroidRecord>, MappingError>)
    ensures r.Ok? <==> forall i :: 0 <= i < |rs| ==> AndroidRecordOf(rs[i], cfg).Ok?
    ensures r.Ok? ==> |r.value| <= |rs|
    ensures r.Ok? ==> (r.value == [] <==> forall i :: 0 <= i < |rs| ==> !Produces(rs[i]))
    ensures r.Err? ==>
              exists i :: 0 <= i < |rs| && AndroidRecordOf(rs[i], cfg) == Err(r.error) &&
                          forall j :: 0 <= j < i ==> AndroidRecordOf(rs[j], cfg).Ok?
    decreases |rs|
  {
    if |rs| == 0 then Ok([])
    else
      var front := rs[..|rs| - 1];
      match MapRecords(front, cfg)
      case Err(e) => Err(e)
      case Ok(mapped) =>
        match AndroidRecordOf(rs[|rs| - 1], cfg)
        case Err(e) => Err(e)
        case Ok(None) => Ok(mapped)
        case Ok(Some(a)) => Ok(mapped + [a])
  }

  /** The positions of `rs` whose records are kept, in increasing order. */
  function KeptIndices(rs: seq<Option<NfcNdefRecord>>): (idx: seq<nat>)
    ensures forall k :: 0 <= k < |idx| ==> idx[k] < |rs| && Produces(rs[idx[k]])
    ensures forall k, l :: 0 <= k < l < |idx| ==> idx[k] < idx[l]
    ensures forall i :: 0 <= i < |rs| && Produces(rs[i]) ==> i in idx
    decreases |rs|
  {
    if |rs| == 0 then []
    else
      var front := KeptIndices(rs[..|rs| - 1]);
      if Produces(rs[|rs| - 1]) then front + [|rs| - 1] else front
  }

  /**
    The built records are the order-preserving subsequence of the input's
    mappable records: the k-th built record is the mapping of the input at the
    k-th kept position.
   */
  lemma {:induction false} MapRecordsKeepsOrder(rs: seq<Option<NfcNdefRecord>>, cfg: Configuration)
    requires MapRecords(rs, cfg).Ok?
    ensures |MapRecords(rs, cfg).value| == |KeptIndices(rs)|
    ensures forall k :: 0 <= k < |KeptIndices(rs)| ==>
              AndroidRecordOf(rs[KeptIndices(rs)[k]], cfg) == Ok(Some(MapRecords(rs, cfg).value[k]))
    decreases |rs|
  {
    if |rs| > 0 {
      var last := |rs| - 1;
      var front := rs[..last];
      var mapped := MapRecords(front, cfg).value;
      var idx := KeptIndices(front);
      MapRecordsKeepsOrder(front, cfg);
      forall k | 0 <= k < |idx|
        ensures AndroidRecordOf(rs[idx[k]], cfg) == Ok(Some(mapped[k]))
      {
        assert front[idx[k]] == rs[idx[k]];
      }
      var a := AndroidRecordOf(rs[last], cfg);
      if Produces(rs[last]) {
        assert KeptIndices(rs) == idx + [last];
        assert MapRecords(rs, cfg).value == mapped + [a.value.value];
      } else {
        assert KeptIndices(rs) == idx;
        assert MapRecords(rs, cfg).value == mapped;
      }
    }
  }

  /** Once a prefix of the input fails, the whole input fails with the same error. */
  lemma {:induction false} FailurePropagates(rs: seq<Option<NfcNdefRecord>>, n: nat, cfg: Configuration)
    requires n <= |rs|
    requires MapRecords(rs[..n], cfg).Err?
    ensures MapRecords(rs, cfg) == MapRecords(rs[..n], cfg)
    decreases |rs|
  {
    if n < |rs| {
      var front := rs[..|rs| - 1];
      assert front[..n] == rs[..n];
      FailurePropagates(front, n, cfg);
    } else {
      assert rs[..n] == rs;
    }
  }

  /**
    The loop the write paths run over tagInfo.Records: add every record
    GetAndroidNdefRecord produces, stopping at the first one that throws.
   */
  method BuildRecords(rs: seq<Option<NfcNdefRecord>>, cfg: Configuration) returns (r: Result<seq<AndroidRecord>, MappingError>)
    ensures r == MapRecords(rs, cfg)
  {
    var records: seq<AndroidRecord> := [];
    var i := 0;
    while i < |rs|
      invariant 0 <= i <= |rs|
      invariant MapRecords(rs[..i], cfg) == Ok(records)
    {
      assert rs[..i + 1][..i] == rs[..i];
      var mapped := AndroidRecordOf(rs[i], cfg);
      if mapped.Err? {
        FailurePropagates(rs, i + 1, cfg);
        return Err(mapped.error);
      }
      if mapped.value.Some? {
        records := records + [mapped.value.value];
      }
      i := i + 1;
    }
    assert rs[..i] == rs;
    r := Ok(records);
  }

  /**
    The message a write path builds from a tag info: its records run through
    the building loop, wrapped in an android.nfc.NdefMessage, which refuses an
    empty record array. A null tag info fails on reading its records.
   */
  function BuiltMessage(tagInfo: Option<TagInfo>, cfg: Configuration): (r: Result<Message, BuildError>)
    ensures tagInfo.None? ==> r == Err(NoTagInfo)
    ensures tagInfo.Some? && MapRecords(tagInfo.value.records, cfg).Ok? ==>
              if MapRecords(tagInfo.value.records, cfg).value == []
              then r == Err(NoRecords)
              else r == Ok(MapRecords(tagInfo.value.records, cfg).value)
    ensures tagInfo.Some? && MapRecords(tagInfo.value.records, cfg).Err? ==>
              r == Err(BadLanguageCode(MapRecords(tagInfo.value.records, cfg).error.code))
    ensures r.Ok? ==> |r.value| > 0
    ensures r == Err(NoRecords) <==> tagInfo.Some? && forall i :: 0 <= i < |tagInfo.value.records| ==>
              AndroidRecordOf(tagInfo.value.records[i], cfg) == Ok(None)
  {
    if tagInfo.None? then Err(NoTagInfo)
    else
      match MapRecords(tagInfo.value.records, cfg)
      case Err(LanguageCodeTooShort(code)) => Err(BadLanguageCode(code))
      case Ok(records) => if records == [] then Err(NoRecords) else Ok(records)
  }
}

=== FILE: status_listener.dfy ===
/**
  The add and remove accessors of OnNfcStatusChanged: the broadcast receiver
  for adapter state changes is registered when the first subscriber arrives
  and unregistered when the last one leaves.
 */
module StatusListener {
  import opened NfcTypes

  /** A subscriber to OnNfcStatusChanged, by identity. */
  type Handler = nat

  /**
    The delegate list behind _onNfcStatusChangedInternal, as a multiset (the
    order of the list plays no part here; a handler added twice is there
    twice), and whether a broadcast receiver is held and registered.
   */
  datatype Listeners = Listeners(handlers: multiset<Handler>, receiverRegistered: bool)

  /** What an accessor did to the broadcast receiver. */
  datatype ReceiverChange = Registers | Unregisters | Keeps

  datatype ListenerStep = ListenerStep(listeners: Listeners, change: ReceiverChange)

  /** No subscriber and no receiver, as the plugin starts. */
  const Initial: Listeners := Listeners(multiset{}, false)

  /** The event field is non-null: some handler is subscribed. */
  predicate Running(l: Listeners)
  {
    |l.handlers| > 0
  }

  /** The receiver is registered exactly while some handler is subscribed. */
  predicate Consistent(l: Listeners)
  {
    l.receiverRegistered <==> Running(l)
  }

  /**
    The add accessor. Adding null leaves the delegate list as it is. The
    receiver is registered when the list goes from empty to non-empty.
   */
  function Subscribe(l: Listeners, h: Option<Handler>): (r: ListenerStep)
    ensures r.listeners.handlers == if h.Some? then l.handlers + multiset{h.value} else l.handlers
    ensures r.change == Registers <==> !Running(l) && h.Some?
    ensures r.change != Unregisters
    ensures r.change == Keeps ==> r.listeners.receiverRegistered == l.receiverRegistered
    ensures Consistent(l) ==> Consistent(r.listeners)
  {
    var wasRunning := |l.handlers| > 0;
    var handlers := if h.Some? then l.handlers + multiset{h.value} else l.handlers;
    if !wasRunning && |handlers| > 0 then ListenerStep(Listeners(handlers, true), Registers)
    else ListenerStep(l.(handlers := handlers), Keeps)
  }

  /**
    The remove accessor. Removing null, or a handler not subscribed, leaves
    the delegate list as it is; otherwise one occurrence goes. When the list
    goes from non-empty to empty the receiver is unregistered, if there is one.
   */
  function Unsubscribe(l: Listeners, h: Option<Handler>): (r: ListenerStep)
    ensures r.listeners.handlers == if h.Some? then l.handlers - multiset{h.value} else l.handlers
    ensures r.change == Unregisters <==> Running(l) && !Running(r.listeners) && l.receiverRegistered
    ensures r.change != Registers
    ensures r.change == Keeps && Running(r.listeners) ==> r.listeners.receiverRegistered == l.receiverRegistered
    ensures Consistent(l) ==> Consistent(r.listeners)
    ensures Consistent(l) ==> (r.change == Unregisters <==> h.Some? && l.handlers == multiset{h.value})
  {
    var wasRunning := |l.handlers| > 0;
    var handlers := if h.Some? then l.handlers - multiset{h.value} else l.handlers;
    if wasRunning && |handlers| == 0 then
      // UnRegisterListener returns at once when there is no receiver.
      if l.receiverRegistered then ListenerStep(Listeners(handlers, false), Unregisters)
      else ListenerStep(Listeners(handlers, false), Keeps)
    else ListenerStep(l.(handlers := handlers), Keeps)
  }

  /** Removing a handler right after adding it restores the subscribers and the receiver. */
  lemma SubscribeThenUnsubscribeRestores(l: Listeners, h: Handler)
    requires Consistent(l)
    ensures Unsubscribe(Subscribe(l, Some(h)).listeners, Some(h)).listeners == l
  {
    var added := Subscribe(l, Some(h)).listeners;
    assert added.handlers - multiset{h} == l.handlers;
  }

  datatype ListenerOp = Add(h: Option<Handler>) | Remove(h: Option<Handler>)

  function Apply(l: Listeners, op: ListenerOp): (step: ListenerStep)
  {
    match op
    case Add(h) => Subscribe(l, h)
    case Remove(h) => Unsubscribe(l, h)
  }

  /** +1 for a registration, -1 for an unregistration. */
  function Weight(c: ReceiverChange): (w: int)
  {
    match c
    case Registers => 1
    case Unregisters => -1
    case Keeps => 0
  }

  function Active(l: Listeners): (n: int)
  {
    if l.receiverRegistered then 1 else 0
  }

  /** The listeners after a run of accessor calls, and registrations minus unregistrations along the way. */
  datatype Replayed = Replayed(listeners: Listeners, balance: int)

  /**
    Runs accessor calls in order. From a consistent start the receiver stays
    registered exactly while someone subscribes, and registrations and
    unregistrations alternate: their difference is the change in whether the
    receiver is registered, so it never registers twice in a row.
   */
  function Replay(l: Listeners, ops: seq<ListenerOp>): (r: Replayed)
    requires Consistent(l)
    ensures Consistent(r.listeners)
    ensures r.balance == Active(r.listeners) - Active(l)
    decreases |ops|
  {
    if |ops| == 0 then Replayed(l, 0)
    else
      var before := Replay(l, ops[..|ops| - 1]);
      var step := Apply(before.listeners, ops[|ops| - 1]);
      Replayed(step.listeners, before.balance + Weight(step.change))
  }

  /** From the plugin's start, the receiver is registered at most once at any time, and exactly while someone subscribes. */
  lemma {:induction false} RegisteredOnlyWhileSubscribed(ops: seq<ListenerOp>)
    ensures var r := Replay(Initial, ops);
      && (r.listeners.receiverRegistered <==> |r.listeners.handlers| > 0)
      && (r.balance == 1 || r.balance == 0)
      && (r.balance == 1 <==> |r.listeners.handlers| > 0)
  {
    assert Consistent(Initial);
  }
}

=== FILE: write_clear.dfy ===
/**
  WriteOrClearMessage and ClearMessage: the checks run before a write, in
  order, the write itself on a tag exposing Ndef, the optional lock, and the
  clean-up that releases the tag and, on any error, leaves write mode.
 */
module WriteClear {
  import opened NfcTypes
  import opened RecordMapping
  import ModeFlags

  /** What WriteOrClearMessage throws. */
  datatype WriteFailure =
      /** No tag held, no tag info, or the tag does not expose Ndef: the configured message. */
    | MissingTag
    | MissingTagInfo
    | NotCompliantTag
      /** Thrown inside the write block, so reported as "Tag Error:" and the configured message. */
    | ReadOnlyTag
    | CapacityExceeded
    | NothingToWrite
      /** A platform exception, by the catch clause that wraps it. */
    | TagLostError(message: string)
    | TagIoError(message: string)
    | TagFormatError(message: string)
    | TagError(message: string)
      /** GetAndroidNdefRecord threw on a language code too short to cut. */
    | BadLanguage(code: string)

  /** The result of one call: the state after, the notifications raised, the calls made on the tag, what was thrown. */
  datatype WriteRun = WriteRun(state: NfcState, events: seq<Event>, actions: seq<TagAction>, failure: Option<WriteFailure>)

  /** The write block's catch clauses, in order: tag lost, I/O, format, anything else. */
  function Caught(e: Exn): (f: WriteFailure)
    ensures f.TagLostError? <==> e.kind == TagLostKind
    ensures f.TagIoError? <==> e.kind == IoKind
    ensures f.TagFormatError? <==> e.kind == FormatKind
    ensures f.TagError? <==> e.kind == OtherKind
    ensures (f.TagLostError? || f.TagIoError? || f.TagFormatError? || f.TagError?) && f.message == e.message
  {
    match e.kind
    case TagLostKind => TagLostError(e.message)
    case IoKind => TagIoError(e.message)
    case FormatKind => TagFormatError(e.message)
    case OtherKind => TagError(e.message)
  }

  /**
    The message the write block writes: the empty message when clearing,
    otherwise the records built from the tag info, or no message when none of
    them survives.
   */
  function OutgoingMessage(info: TagInfo, clearMessage: bool, cfg: Configuration): (r: Result<Option<Message>, MappingError>)
    ensures clearMessage ==> r == Ok(Some(EmptyMessage()))
    ensures !clearMessage ==>
              && (r.Ok? <==> MapRecords(info.records, cfg).Ok?)
              && (r.Ok? ==> (r.value.None? <==> forall i :: 0 <= i < |info.records| ==> !Produces(info.records[i])))
              && (r.Ok? && r.value.Some? ==> r.value.value == MapRecords(info.records, cfg).value)
    ensures r.Ok? && r.value.Some? ==> |r.value.value| > 0
  {
    if clearMessage then Ok(Some(EmptyMessage()))
    else
      match MapRecords(info.records, cfg)
      case Err(e) => Err(e)
      case Ok(records) => if records == [] then Ok(None) else Ok(Some(records))
  }

  /** What the MakeReadOnly helper did: whether it called Ndef.MakeReadOnly, and what it returned or threw. */
  datatype LockCall = LockCall(called: bool, outcome: Result<bool, Exn>)

  /**
    The MakeReadOnly helper on the connected Ndef handle: it calls
    Ndef.MakeReadOnly only when CanMakeReadOnly holds, and otherwise reports
    false. It returns true only when the tag was locked, and it throws only
    what Ndef.MakeReadOnly throws.
   */
  function LockTag(n: NdefTech, lock: LockStep): (r: LockCall)
    ensures r.called <==> n.canMakeReadOnly
    ensures !n.canMakeReadOnly ==> r.outcome == Ok(false)
    ensures r.outcome.Err? <==> n.canMakeReadOnly && lock.LockThrew?
    ensures r.outcome.Err? ==> r.outcome.error == lock.e
    ensures r.outcome == Ok(true) <==> n.canMakeReadOnly && lock == LockReturned(true)
  {
    if !n.canMakeReadOnly then LockCall(false, Ok(false))
    else
      match lock
      case LockThrew(e) => LockCall(true, Err(e))
      case LockReturned(locked) => LockCall(true, Ok(locked))
  }

  /** Locking is attempted only on a write that is not a clear, when asked, and when Ndef can lock the tag. */
  predicate LockAttempted(n: NdefTech, clearMessage: bool, makeReadOnly: bool)
  {
    !clearMessage && makeReadOnly && n.canMakeReadOnly
  }

  /** The body of the write block, up to its finally clause; `connected` says whether Ndef.Connect returned. */
  datatype Attempt = Attempt(events: seq<Event>, actions: seq<TagAction>, connected: bool, failure: Option<WriteFailure>)

  function NdefAttempt(tag: Tag, n: NdefTech, info: TagInfo, clearMessage: bool, makeReadOnly: bool,
                       cfg: Configuration, sizeOf: seq<Option<NfcNdefRecord>> -> int, io: TagIo): (a: Attempt)
    ensures !n.isWritable ==> a == Attempt([], [], false, Some(ReadOnlyTag))
    ensures n.isWritable && n.maxSize < sizeOf(info.records) ==> a == Attempt([], [], false, Some(CapacityExceeded))
    ensures a.connected <==> n.isWritable && sizeOf(info.records) <= n.maxSize && io.ndefConnect.Done?
    ensures a.connected ==> |a.actions| > 0 && a.actions[0] == Connect(NdefT)
    ensures !a.connected ==> NoWrite(a.actions)
    ensures Lacks(a.events, TagDisconnected)
    ensures a.failure.None? <==> AttemptSucceeds(n, info, clearMessage, makeReadOnly, cfg, sizeOf, io)
    ensures a.failure.None? ==>
              && OutgoingMessage(info, clearMessage, cfg).Ok? && OutgoingMessage(info, clearMessage, cfg).value.Some?
              && a.events == [TagConnected, MessagePublished(tag, OutgoingMessage(info, clearMessage, cfg).value.value)]
              && WriteNdef(OutgoingMessage(info, clearMessage, cfg).value.value) in a.actions
    ensures a.failure == Some(NothingToWrite) || (a.failure.Some? && a.failure.value.BadLanguage?) ==> NoWrite(a.actions)
    ensures forall i :: 0 <= i < |a.actions| && a.actions[i].WriteNdef? ==>
              OutgoingMessage(info, clearMessage, cfg) == Ok(Some(a.actions[i].message))
    ensures forall i :: 0 <= i < |a.actions| ==> !a.actions[i].Close?
    ensures MakeReadOnly in a.actions ==> LockAttempted(n, clearMessage, makeReadOnly)
    // Which failure each step of the block gives.
    ensures n.isWritable && sizeOf(info.records) <= n.maxSize && io.ndefConnect.Threw? ==>
              a.failure == Some(Caught(io.ndefConnect.e))
    ensures a.connected && OutgoingMessage(info, clearMessage, cfg) == Ok(None) ==> a.failure == Some(NothingToWrite)
    ensures a.connected && OutgoingMessage(info, clearMessage, cfg).Err? ==>
              a.failure == Some(BadLanguage(OutgoingMessage(info, clearMessage, cfg).error.code))
    ensures a.connected && OutgoingMessage(info, clearMessage, cfg).Ok? && OutgoingMessage(info, clearMessage, cfg).value.Some? ==>
              && (io.ndefWrite.Threw? ==> a.failure == Some(Caught(io.ndefWrite.e)))
              && (io.ndefWrite.Done? && LockAttempted(n, clearMessage, makeReadOnly) && io.ndefLock.LockThrew? ==>
                    a.failure == Some(Caught(io.ndefLock.e)))
              && (io.readBack.Threw? && io.ndefWrite.Done? &&
                  (LockAttempted(n, clearMessage, makeReadOnly) ==> io.ndefLock.LockReturned?) ==>
                    a.failure == Some(Caught(io.readBack.e)))
    ensures a.connected && OutgoingMessage(info, clearMessage, cfg).Ok? && OutgoingMessage(info, clearMessage, cfg).value.Some? &&
            io.ndefWrite.Done? && LockAttempted(n, clearMessage, makeReadOnly) ==>
              MakeReadOnly in a.actions
  {
    if !n.isWritable then Attempt([], [], false, Some(ReadOnlyTag))
    else if n.maxSize < sizeOf(info.records) then Attempt([], [], false, Some(CapacityExceeded))
    else if io.ndefConnect.Threw? then Attempt([], [Connect(NdefT)], false, Some(Caught(io.ndefConnect.e)))
    else
      var attached := [Connect(NdefT)];
      match OutgoingMessage(info, clearMessage, cfg)
      case Err(LanguageCodeTooShort(code)) => Attempt([TagConnected], attached, true, Some(BadLanguage(code)))
      case Ok(None) => Attempt([TagConnected], attached, true, Some(NothingToWrite))
      case Ok(Some(m)) =>
        var written := attached + [WriteNdef(m)];
        var published := [TagConnected, MessagePublished(tag, m)];
        if io.ndefWrite.Threw? then Attempt([TagConnected], written, true, Some(Caught(io.ndefWrite.e)))
        else
          var lock := LockTag(n, io.ndefLock);
          var locking := !clearMessage && makeReadOnly;
          var locked := if locking && lock.called then written + [MakeReadOnly] else written;
          if locking && lock.outcome.Err? then Attempt([TagConnected], locked, true, Some(Caught(lock.outcome.error)))
          else
            // The published snapshot reads Ndef.NdefMessage, which goes back to the tag.
            var read := locked + [ReadNdef];
            if io.readBack.Threw? then Attempt([TagConnected], read, true, Some(Caught(io.readBack.e)))
            else Attempt(published, read, true, None)
  }

  /** True when a call reaches the write block: a tag is held, a tag info is given and the tag exposes Ndef. */
  predicate EntersNdefPath(s: NfcState, tagInfo: Option<TagInfo>)
  {
    s.currentTag.Some? && tagInfo.Some? && s.currentTag.value.ndef.Some?
  }

  /**
    When the write block succeeds, stated step by step: the tag is writable
    and large enough, Ndef connects, a message is built, the write returns,
    the lock, if attempted, does not throw (a lock that returns false is
    not a failure), and reading the written message back does not throw.
   */
  predicate AttemptSucceeds(n: NdefTech, info: TagInfo, clearMessage: bool, makeReadOnly: bool,
                            cfg: Configuration, sizeOf: seq<Option<NfcNdefRecord>> -> int, io: TagIo)
  {
    && n.isWritable
    && sizeOf(info.records) <= n.maxSize
    && io.ndefConnect.Done?
    && OutgoingMessage(info, clearMessage, cfg).Ok?
    && OutgoingMessage(info, clearMessage, cfg).value.Some?
    && io.ndefWrite.Done?
    && (LockAttempted(n, clearMessage, makeReadOnly) ==> io.ndefLock.LockReturned?)
    && io.readBack.Done?
  }

  /** When a whole call succeeds: it reaches the write block and the block succeeds. */
  predicate Succeeds(s: NfcState, tagInfo: Option<TagInfo>, clearMessage: bool, makeReadOnly: bool,
                     cfg: Configuration, sizeOf: seq<Option<NfcNdefRecord>> -> int, io: TagIo)
  {
    && EntersNdefPath(s, tagInfo)
    && AttemptSucceeds(s.currentTag.value.ndef.value, tagInfo.value, clearMessage, makeReadOnly, cfg, sizeOf, io)
  }

  /**
    WriteOrClearMessage. `sizeOf` is NFCUtils.GetSize; `io` gives the outcome
    of each Ndef call.
   */
  function WriteOrClearMessage(s: NfcState, tagInfo: Option<TagInfo>, clearMessage: bool, makeReadOnly: bool,
                               cfg: Configuration, sizeOf: seq<Option<NfcNdefRecord>> -> int, io: TagIo): (r: WriteRun)
    // The checks, in the order they run.
    ensures s.currentTag.None? ==> r.failure == Some(MissingTag)
    ensures s.currentTag.Some? && tagInfo.None? ==> r.failure == Some(MissingTagInfo)
    ensures s.currentTag.Some? && tagInfo.Some? && s.currentTag.value.ndef.None? ==> r.failure == Some(NotCompliantTag)
    ensures EntersNdefPath(s, tagInfo) && !s.currentTag.value.ndef.value.isWritable ==>
              r.failure == Some(ReadOnlyTag)
    ensures EntersNdefPath(s, tagInfo) && s.currentTag.value.ndef.value.isWritable &&
            s.currentTag.value.ndef.value.maxSize < sizeOf(tagInfo.value.records) ==>
              r.failure == Some(CapacityExceeded)
    // Clean-up: the write block always releases the tag and announces it once; the checks before it do not.
    ensures EntersNdefPath(s, tagInfo) ==> r.state.currentTag.None? && EndsWithOnly(r.events, TagDisconnected)
    ensures !EntersNdefPath(s, tagInfo) ==> r.state.currentTag == s.currentTag && r.events == [] && r.actions == []
    // Any error leaves write mode; success keeps it.
    ensures r.failure.Some? ==> !r.state.isWriting && !r.state.isFormatting
    ensures r.failure.None? ==> r.state == s.(currentTag := None)
    ensures r.state.isListening == s.isListening
    // Success, and what is written.
    ensures r.failure.None? <==> Succeeds(s, tagInfo, clearMessage, makeReadOnly, cfg, sizeOf, io)
    // Inside the write block, the failure is the block's, as NdefAttempt states it step by step.
    ensures EntersNdefPath(s, tagInfo) ==>
              r.failure == NdefAttempt(s.currentTag.value, s.currentTag.value.ndef.value, tagInfo.value, clearMessage,
                                       makeReadOnly, cfg, sizeOf, io).failure
    ensures EntersNdefPath(s, tagInfo) && s.currentTag.value.ndef.value.isWritable &&
            sizeOf(tagInfo.value.records) <= s.currentTag.value.ndef.value.maxSize && io.ndefConnect.Done? &&
            OutgoingMessage(tagInfo.value, clearMessage, cfg) == Ok(None) ==>
              r.failure == Some(NothingToWrite) && NoWrite(r.actions)
    // A write that returns on a lockable tag, with the read-only flag and not clearing, is followed by the lock.
    ensures EntersNdefPath(s, tagInfo) && s.currentTag.value.ndef.value.isWritable &&
            sizeOf(tagInfo.value.records) <= s.currentTag.value.ndef.value.maxSize && io.ndefConnect.Done? &&
            OutgoingMessage(tagInfo.value, clearMessage, cfg).Ok? && OutgoingMessage(tagInfo.value, clearMessage, cfg).value.Some? &&
            io.ndefWrite.Done? && LockAttempted(s.currentTag.value.ndef.value, clearMessage, makeReadOnly) ==>
              MakeReadOnly in r.actions
  {
    if s.currentTag.None? then Abandon(s, MissingTag)
    else if tagInfo.None? then Abandon(s, MissingTagInfo)
    else
      var tag := s.currentTag.value;
      match tag.ndef
      case None => Abandon(s, NotCompliantTag)
      case Some(n) =>
        var a := NdefAttempt(tag, n, tagInfo.value, clearMessage, makeReadOnly, cfg, sizeOf, io);
        var actions := if a.connected then a.actions + [Close(NdefT)] else a.actions;
        var released := s.(currentTag := None);
        var after := if a.failure.Some? then ModeFlags.StopPublishing(released) else released;
        WriteRun(after, a.events + [TagDisconnected], actions, a.failure)
  }

  /** A failed check makes no call on the tag, and a message that cannot be built is never written. */
  lemma NoTagCallBeforeChecksPass(s: NfcState, tagInfo: Option<TagInfo>, clearMessage: bool, makeReadOnly: bool,
                                cfg: Configuration, sizeOf: seq<Option<NfcNdefRecord>> -> int, io: TagIo)
    ensures var r := WriteOrClearMessage(s, tagInfo, clearMessage, makeReadOnly, cfg, sizeOf, io);
      && (r.failure in {Some(MissingTag), Some(MissingTagInfo), Some(NotCompliantTag), Some(ReadOnlyTag), Some(CapacityExceeded)} ==>
            r.actions == [])
      && (r.failure == Some(NothingToWrite) || (r.failure.Some? && r.failure.value.BadLanguage?) ==> NoWrite(r.actions))
  {
  }

  /** Once Ndef.Connect has returned, the last call made on the tag is Ndef.Close. */
  lemma ClosesWhatItConnects(s: NfcState, tagInfo: Option<TagInfo>, clearMessage: bool, makeReadOnly: bool,
                                cfg: Configuration, sizeOf: seq<Option<NfcNdefRecord>> -> int, io: TagIo)
    ensures var r := WriteOrClearMessage(s, tagInfo, clearMessage, makeReadOnly, cfg, sizeOf, io);
      Connect(NdefT) in r.actions && io.ndefConnect.Done? ==> r.actions[|r.actions| - 1] == Close(NdefT)
  {
  }

  /**
    A successful call publishes the message it wrote between the connected and
    disconnected notifications; a clear writes the empty message, any other
    write the non-empty list of built records.
   */
  lemma PublishesWhatItWrites(s: NfcState, tagInfo: Option<TagInfo>, clearMessage: bool, makeReadOnly: bool,
                                cfg: Configuration, sizeOf: seq<Option<NfcNdefRecord>> -> int, io: TagIo)
    ensures var r := WriteOrClearMessage(s, tagInfo, clearMessage, makeReadOnly, cfg, sizeOf, io);
      r.failure.None? ==>
        && s.currentTag.Some? && tagInfo.Some?
        && var m := OutgoingMessage(tagInfo.value, clearMessage, cfg).value.value;
           r.events == [TagConnected, MessagePublished(s.currentTag.value, m), TagDisconnected] &&
           WriteNdef(m) in r.actions
    ensures var r := WriteOrClearMessage(s, tagInfo, clearMessage, makeReadOnly, cfg, sizeOf, io);
      forall i :: 0 <= i < |r.actions| && r.actions[i].WriteNdef? ==>
        && tagInfo.Some?
        && if clearMessage then r.actions[i].message == EmptyMessage()
           else r.actions[i].message == MapRecords(tagInfo.value.records, cfg).value && r.actions[i].message != []
  {
  }

  /** Locking is attempted only when writing (not clearing) with the read-only flag set. */
  lemma LocksOnlyWhenAsked(s: NfcState, tagInfo: Option<TagInfo>, clearMessage: bool, makeReadOnly: bool,
                                cfg: Configuration, sizeOf: seq<Option<NfcNdefRecord>> -> int, io: TagIo)
    ensures MakeReadOnly in WriteOrClearMessage(s, tagInfo, clearMessage, makeReadOnly, cfg, sizeOf, io).actions ==> !clearMessage && makeReadOnly
  {
  }

  /** A check before the write block failed: leave write mode and throw. */
  function Abandon(s: NfcState, f: WriteFailure): (r: WriteRun)
  {
    WriteRun(ModeFlags.StopPublishing(s), [], [], Some(f))
  }

  /**
    ClearMessage: WriteOrClearMessage with the clear flag. It never locks the
    tag, and a successful clear writes exactly the empty message.
   */
  function ClearMessage(s: NfcState, tagInfo: Option<TagInfo>, cfg: Configuration,
                        sizeOf: seq<Option<NfcNdefRecord>> -> int, io: TagIo): (r: WriteRun)
    ensures MakeReadOnly !in r.actions
    ensures forall i :: 0 <= i < |r.actions| && r.actions[i].WriteNdef? ==>
              r.actions[i].message == [RawRecord(TnfEmpty, [], [], [])]
    ensures r.failure.None? ==>
              s.currentTag.Some? &&
              r.events == [TagConnected, MessagePublished(s.currentTag.value, EmptyMessage()), TagDisconnected]
  {
    WriteOrClearMessage(s, tagInfo, true, false, cfg, sizeOf, io)
  }

  /** A lock that returns false does not fail the write: the outcome is the one a successful lock gives. */
  lemma LockRefusalIsNotFailure(s: NfcState, tagInfo: Option<TagInfo>, clearMessage: bool, makeReadOnly: bool,
                                cfg: Configuration, sizeOf: seq<Option<NfcNdefRecord>> -> int, io: TagIo)
    ensures WriteOrClearMessage(s, tagInfo, clearMessage, makeReadOnly, cfg, sizeOf, io.(ndefLock := LockReturned(false)))
         == WriteOrClearMessage(s, tagInfo, clearMessage, makeReadOnly, cfg, sizeOf, io.(ndefLock := LockReturned(true)))
  {
  }

  /**
    A tag taken away right after the write makes the read-back throw: the
    message is on the tag, but the call fails with the read-back's exception,
    publishes nothing and leaves write mode.
   */
  lemma LostReadBackFailsTheWrite(s: NfcState, tagInfo: Option<TagInfo>, clearMessage: bool, makeReadOnly: bool,
                                  cfg: Configuration, sizeOf: seq<Option<NfcNdefRecord>> -> int, io: TagIo, e: Exn)
    requires Succeeds(s, tagInfo, clearMessage, makeReadOnly, cfg, sizeOf, io)
    ensures var r := WriteOrClearMessage(s, tagInfo, clearMessage, makeReadOnly, cfg, sizeOf, io.(readBack := Threw(e)));
      && r.failure == Some(Caught(e))
      && !r.state.isWriting
      && r.events == [TagConnected, TagDisconnected]
      && WriteNdef(OutgoingMessage(tagInfo.value, clearMessage, cfg).value.value) in r.actions
  {
  }

  /** A failed write leaves write mode, so the next discovered tag is read. */
  lemma FailedWriteReturnsToReading(s: NfcState, tagInfo: Option<TagInfo>, clearMessage: bool, makeReadOnly: bool,
                                    cfg: Configuration, sizeOf: seq<Option<NfcNdefRecord>> -> int, io: TagIo, next: Tag)
    requires WriteOrClearMessage(s, tagInfo, clearMessage, makeReadOnly, cfg, sizeOf, io).failure.Some?
    ensures ModeFlags.HandleNewIntent(WriteOrClearMessage(s, tagInfo, clearMessage, makeReadOnly, cfg, sizeOf, io).state,
                                      ModeFlags.Discovery(next)).events == [MessageReceived(next)]
  {
  }

  /** A successful write keeps write mode: the next discovered tag is offered for writing again. */
  lemma SuccessfulWriteStaysArmed(s: NfcState, tagInfo: Option<TagInfo>, clearMessage: bool, makeReadOnly: bool,
                                  cfg: Configuration, sizeOf: seq<Option<NfcNdefRecord>> -> int, io: TagIo, next: Tag)
    requires s.isWriting
    requires WriteOrClearMessage(s, tagInfo, clearMessage, makeReadOnly, cfg, sizeOf, io).failure.None?
    ensures ModeFlags.HandleNewIntent(WriteOrClearMessage(s, tagInfo, clearMessage, makeReadOnly, cfg, sizeOf, io).state,
                                      ModeFlags.Discovery(next)).events == [TagDiscovered(next, s.isFormatting)]
  {
  }
}

=== FILE: write_format.dfy ===
/**
  WriteMessageAndFormat (reached through PublishMessage): which of its three
  paths a held tag takes, and what each path calls on the tag, raises and
  throws. A tag without Ndef but with NdefFormatable is formatted with the
  message, falling back to an Ultralight bootstrap when formatting fails in
  some other way than a lost tag or a rejected message; a tag with Ndef is
  written directly. This operation never releases the held tag and never
  leaves write mode.
 */
module WriteFormat {
  import opened NfcTypes
  import opened RecordMapping

  /** What WriteMessageAndFormat throws. */
  datatype PublishFailure =
      /** No tag held: the configured missing-tag message. */
    | NoTag
      /** Neither Ndef nor NdefFormatable, or NdefFormatable.Get gave no handle: the configured not-compliant message. */
    | NotCompliant
      /** NdefFormatable.Connect threw: the configured missing-tag message. */
    | FormatConnectFailed
      /** Formatting threw a tag-lost or format exception: the missing-tag message and the exception's. */
    | FormatInterrupted(message: string)
      /** Closing the NdefFormatable handle before the fallback threw: the configured write message and the exception. */
    | FallbackFailed(e: Exn)
      /** Ndef.Connect threw: "Tag Error: No Tag nearby". */
    | NoTagNearby
      /** The Ndef write or lock threw a tag-lost exception, a format exception, or anything else. */
    | WriteLost(message: string)
    | WriteRejected(message: string)
    | WriteFailed(cause: WriteCause)

  /** What the catch-all clause of the Ndef write reports: a platform exception, or the message could not be built. */
  datatype WriteCause = PlatformError(e: Exn) | BuildFailed(error: BuildError)

  /** One path's notifications, calls on the tag, and what it throws. */
  datatype Leg = Leg(events: seq<Event>, actions: seq<TagAction>, failure: Option<PublishFailure>)

  datatype PublishRun = PublishRun(state: NfcState, events: seq<Event>, actions: seq<TagAction>, failure: Option<PublishFailure>)

  /** The catch clauses of the Ndef write, in order: tag lost, format, anything else. */
  function CaughtWrite(e: Exn): (f: PublishFailure)
    ensures f.WriteLost? <==> e.kind == TagLostKind
    ensures f.WriteRejected? <==> e.kind == FormatKind
    ensures f.WriteFailed? <==> e.kind == IoKind || e.kind == OtherKind
    ensures f.WriteLost? || f.WriteRejected? ==> f.message == e.message
    ensures f.WriteFailed? ==> f.cause == PlatformError(e)
  {
    match e.kind
    case TagLostKind => WriteLost(e.message)
    case FormatKind => WriteRejected(e.message)
    case _ => WriteFailed(PlatformError(e))
  }

  /** True when every message a call in `actions` writes or formats with is `m`. */
  predicate WritesOnly(actions: seq<TagAction>, m: Message)
  {
    forall i :: 0 <= i < |actions| && (actions[i].WriteNdef? || actions[i].Format?) ==> actions[i].message == m
  }

  /**
    What follows the Ultralight bootstrap: with the Ndef handle `handle`,
    connect, rebuild the message, write it and lock it when asked, closing
    at the end. Every failure is swallowed, so it returns only the calls
    made. With no handle, Ndef.Connect on the null handle throws at once and
    that is swallowed too.
   */
  function RetryThroughNdef(handle: Option<NdefTech>, tagInfo: Option<TagInfo>, makeReadOnly: bool,
                            cfg: Configuration, io: TagIo): (actions: seq<TagAction>)
    ensures handle.None? ==> actions == []
    ensures handle.Some? ==> |actions| > 0 && actions[0] == Connect(NdefT)
    ensures handle.Some? && io.reconnect.Done? && BuiltMessage(tagInfo, cfg).Ok? ==>
              && WriteNdef(BuiltMessage(tagInfo, cfg).value) in actions
              && (io.fallbackWrite.Done? && makeReadOnly ==> MakeReadOnly in actions)
    ensures !NoWrite(actions) ==> BuiltMessage(tagInfo, cfg).Ok? && WritesOnly(actions, BuiltMessage(tagInfo, cfg).value)
    ensures MakeReadOnly in actions ==> makeReadOnly
    ensures forall i :: 0 <= i < |actions| ==> !actions[i].Format?
  {
    match handle
    case None => []
    case Some(_) =>
      var reopened := [Connect(NdefT)];
      if io.reconnect.Threw? then reopened
      else
        match BuiltMessage(tagInfo, cfg)
        case Err(_) => reopened
        case Ok(m) =>
          var written := reopened + [WriteNdef(m)];
          if io.fallbackWrite.Threw? then written
          else if !makeReadOnly then written + [Close(NdefT)]
          else if io.fallbackLock.Threw? then written + [MakeReadOnly]
          else written + [MakeReadOnly, Close(NdefT)]
  }

  /** True when the fallback runs the Ultralight bootstrap: the tag lists MifareUltralight and MifareUltralight.Get gives a handle. */
  predicate UltralightCapable(tag: Tag)
  {
    tag.listsUltralight && tag.ultralight
  }

  /**
    The Ultralight bootstrap as written, run once the NdefFormatable handle is
    closed: connect as Ultralight and write the two pages, close, then take
    Ndef.Get of the same tag and retry through it. The tag's technologies do
    not change, so that handle is the one Ndef.Get gave before: on the format
    path there is none, and the retry never writes.
   */
  function UltralightFallback(tag: Tag, tagInfo: Option<TagInfo>, makeReadOnly: bool,
                              cfg: Configuration, io: TagIo): (actions: seq<TagAction>)
    ensures !UltralightCapable(tag) ==> actions == []
    ensures UltralightCapable(tag) ==> |actions| >= 2 && actions[..2] == [Bootstrap, Close(UltralightT)]
    ensures tag.ndef.None? ==>
              forall i :: 0 <= i < |actions| ==>
                !actions[i].WriteNdef? && actions[i] != MakeReadOnly && actions[i] != Connect(NdefT)
    ensures !NoWrite(actions) ==> BuiltMessage(tagInfo, cfg).Ok? && WritesOnly(actions, BuiltMessage(tagInfo, cfg).value)
    ensures MakeReadOnly in actions ==> makeReadOnly
    ensures forall i :: 0 <= i < |actions| ==> !actions[i].Format?
  {
    if !UltralightCapable(tag) then []
    else [Bootstrap, Close(UltralightT)] + RetryThroughNdef(tag.ndef, tagInfo, makeReadOnly, cfg, io)
  }

  /**
    The bootstrap as evidently intended: the retry goes through `formatted`,
    the Ndef handle of the tag as it is after the bootstrap (obtainable only
    by discovering the tag again), so the message the format step could not
    write reaches the tag.
   */
  function IntendedUltralightFallback(tag: Tag, formatted: NdefTech, tagInfo: Option<TagInfo>, makeReadOnly: bool,
                                      cfg: Configuration, io: TagIo): (actions: seq<TagAction>)
    ensures !UltralightCapable(tag) ==> actions == []
    ensures UltralightCapable(tag) ==> |actions| >= 3 && actions[..3] == [Bootstrap, Close(UltralightT), Connect(NdefT)]
    ensures UltralightCapable(tag) && io.reconnect.Done? && BuiltMessage(tagInfo, cfg).Ok? ==>
              && WriteNdef(BuiltMessage(tagInfo, cfg).value) in actions
              && (io.fallbackWrite.Done? && makeReadOnly ==> MakeReadOnly in actions)
    ensures !NoWrite(actions) ==> BuiltMessage(tagInfo, cfg).Ok? && WritesOnly(actions, BuiltMessage(tagInfo, cfg).value)
    ensures MakeReadOnly in actions ==> makeReadOnly
  {
    if !UltralightCapable(tag) then []
    else [Bootstrap, Close(UltralightT)] + RetryThroughNdef(Some(formatted), tagInfo, makeReadOnly, cfg, io)
  }

  /**
    The catch-all clause of the format step: close the NdefFormatable handle
    and run the Ultralight bootstrap. Only the close can throw.
   */
  function Fallback(before: seq<TagAction>, tag: Tag, tagInfo: Option<TagInfo>, makeReadOnly: bool,
                    cfg: Configuration, io: TagIo): (leg: Leg)
    ensures leg.events == [TagConnected, TagDisconnected]
    ensures leg.failure.Some? <==> io.formatClose.Threw?
    ensures io.formatClose.Threw? ==> leg.failure == Some(FallbackFailed(io.formatClose.e))
    ensures leg.actions == before + [Close(FormatableT)] +
              (if io.formatClose.Done? then UltralightFallback(tag, tagInfo, makeReadOnly, cfg, io) else [])
  {
    var closing := before + [Close(FormatableT)];
    match io.formatClose
    case Threw(e) => Leg([TagConnected, TagDisconnected], closing, Some(FallbackFailed(e)))
    case Done => Leg([TagConnected, TagDisconnected], closing + UltralightFallback(tag, tagInfo, makeReadOnly, cfg, io), None)
  }

  /** The format path: connect through NdefFormatable, build the message, format with it. */
  function FormatPath(tag: Tag, tagInfo: Option<TagInfo>, makeReadOnly: bool, cfg: Configuration, io: TagIo): (leg: Leg)
    ensures !tag.formatable ==> leg == Leg([], [], Some(NotCompliant))
    ensures tag.formatable ==> |leg.actions| > 0 && leg.actions[0] == Connect(FormatableT)
    ensures tag.formatable && io.formatConnect.Threw? ==> leg == Leg([], [Connect(FormatableT)], Some(FormatConnectFailed))
    ensures tag.formatable && io.formatConnect.Done? ==> leg.events == [TagConnected, TagDisconnected]
    ensures leg.failure.Some? ==>
              leg.failure.value.NotCompliant? || leg.failure.value.FormatConnectFailed? ||
              leg.failure.value.FormatInterrupted? || leg.failure.value.FallbackFailed?
    ensures tag.formatable && io.formatConnect.Done? && BuiltMessage(tagInfo, cfg).Ok? && io.format.Done? ==>
              leg.failure.None?
    ensures tag.formatable && io.formatConnect.Done? && BuiltMessage(tagInfo, cfg).Ok? && io.format.Threw? &&
            (io.format.e.kind == TagLostKind || io.format.e.kind == FormatKind) ==>
              leg.failure == Some(FormatInterrupted(io.format.e.message))
    ensures tag.formatable && io.formatConnect.Done? &&
            (BuiltMessage(tagInfo, cfg).Err? || (io.format.Threw? && (io.format.e.kind == IoKind || io.format.e.kind == OtherKind))) ==>
              (leg.failure.Some? <==> io.formatClose.Threw?) &&
              (io.formatClose.Threw? ==> leg.failure == Some(FallbackFailed(io.formatClose.e)))
    ensures tag.formatable && io.formatConnect.Done? && BuiltMessage(tagInfo, cfg).Ok? ==>
              |leg.actions| >= 2 && leg.actions[1] == Format(BuiltMessage(tagInfo, cfg).value, makeReadOnly)
  {
    if !tag.formatable then Leg([], [], Some(NotCompliant))
    else if io.formatConnect.Threw? then Leg([], [Connect(FormatableT)], Some(FormatConnectFailed))
    else
      var attached := [Connect(FormatableT)];
      match BuiltMessage(tagInfo, cfg)
      case Err(_) => Fallback(attached, tag, tagInfo, makeReadOnly, cfg, io)
      case Ok(m) =>
        var formatted := attached + [Format(m, makeReadOnly)];
        match io.format
        case Done => Leg([TagConnected, TagDisconnected], formatted, None)
        case Threw(e) =>
          if e.kind == TagLostKind || e.kind == FormatKind
          then Leg([TagConnected, TagDisconnected], formatted, Some(FormatInterrupted(e.message)))
          else Fallback(formatted, tag, tagInfo, makeReadOnly, cfg, io)
  }

  /**
    What the format path may call: writes and formats only with the built
    message, formats read-only exactly as asked, locks only when asked, and,
    on a tag without Ndef, never goes through Ndef.
   */
  predicate WritesAsAsked(actions: seq<TagAction>, tag: Tag, tagInfo: Option<TagInfo>, makeReadOnly: bool, cfg: Configuration)
  {
    && (!NoWrite(actions) ==> BuiltMessage(tagInfo, cfg).Ok? && WritesOnly(actions, BuiltMessage(tagInfo, cfg).value))
    && (MakeReadOnly in actions ==> makeReadOnly)
    && (forall i :: 0 <= i < |actions| && actions[i].Format? ==> actions[i].readOnly == makeReadOnly)
    && (tag.ndef.None? ==>
          forall i :: 0 <= i < |actions| ==>
            !actions[i].WriteNdef? && actions[i] != MakeReadOnly && actions[i] != Connect(NdefT))
  }

  lemma WritesAsAskedConcat(a: seq<TagAction>, b: seq<TagAction>, tag: Tag, tagInfo: Option<TagInfo>,
                            makeReadOnly: bool, cfg: Configuration)
    requires WritesAsAsked(a, tag, tagInfo, makeReadOnly, cfg) && WritesAsAsked(b, tag, tagInfo, makeReadOnly, cfg)
    ensures WritesAsAsked(a + b, tag, tagInfo, makeReadOnly, cfg)
  {
    var ab := a + b;
    forall i | 0 <= i < |ab|
      ensures ab[i] == if i < |a| then a[i] else b[i - |a|]
    {
    }
    if !NoWrite(ab) {
      var i :| 0 <= i < |ab| && (ab[i].WriteNdef? || ab[i].Format?);
      if i < |a| { assert !NoWrite(a); } else { assert !NoWrite(b) by { assert b[i - |a|] == ab[i]; } }
    }
    assert MakeReadOnly in ab ==> MakeReadOnly in a || MakeReadOnly in b;
  }

  /** The format path writes only what it is asked to, and never through Ndef on a tag without it. */
  lemma FormatPathWrites(tag: Tag, tagInfo: Option<TagInfo>, makeReadOnly: bool, cfg: Configuration, io: TagIo)
    ensures WritesAsAsked(FormatPath(tag, tagInfo, makeReadOnly, cfg, io).actions, tag, tagInfo, makeReadOnly, cfg)
  {
    var actions := FormatPath(tag, tagInfo, makeReadOnly, cfg, io).actions;
    if !tag.formatable || io.formatConnect.Threw? {
      assert NoWrite(actions) && |actions| <= 1 && MakeReadOnly !in actions;
    } else {
      FallbackWritesAsAsked(tag, tagInfo, makeReadOnly, cfg, io);
      match BuiltMessage(tagInfo, cfg)
      case Err(_) => UnbuiltFormatPathWrites(tag, tagInfo, makeReadOnly, cfg, io);
      case Ok(m) => BuiltFormatPathWrites(tag, tagInfo, makeReadOnly, cfg, io);
    }
  }

  /** The calls from closing NdefFormatable on: the close and, when it returns, the bootstrap. */
  function FallbackTail(tag: Tag, tagInfo: Option<TagInfo>, makeReadOnly: bool, cfg: Configuration, io: TagIo): (tail: seq<TagAction>)
  {
    [Close(FormatableT)] + if io.formatClose.Done? then UltralightFallback(tag, tagInfo, makeReadOnly, cfg, io) else []
  }

  lemma FallbackWritesAsAsked(tag: Tag, tagInfo: Option<TagInfo>, makeReadOnly: bool, cfg: Configuration, io: TagIo)
    ensures WritesAsAsked(FallbackTail(tag, tagInfo, makeReadOnly, cfg, io), tag, tagInfo, makeReadOnly, cfg)
  {
    var tail := if io.formatClose.Done? then UltralightFallback(tag, tagInfo, makeReadOnly, cfg, io) else [];
    assert WritesAsAsked(tail, tag, tagInfo, makeReadOnly, cfg);
    assert WritesAsAsked([Close(FormatableT)], tag, tagInfo, makeReadOnly, cfg);
    WritesAsAskedConcat([Close(FormatableT)], tail, tag, tagInfo, makeReadOnly, cfg);
  }

  lemma UnbuiltFormatPathWrites(tag: Tag, tagInfo: Option<TagInfo>, makeReadOnly: bool, cfg: Configuration, io: TagIo)
    requires tag.formatable && io.formatConnect.Done? && BuiltMessage(tagInfo, cfg).Err?
    requires WritesAsAsked(FallbackTail(tag, tagInfo, makeReadOnly, cfg, io), tag, tagInfo, makeReadOnly, cfg)
    ensures WritesAsAsked(FormatPath(tag, tagInfo, makeReadOnly, cfg, io).actions, tag, tagInfo, makeReadOnly, cfg)
  {
    var attached := [Connect(FormatableT)];
    assert FormatPath(tag, tagInfo, makeReadOnly, cfg, io).actions == attached + FallbackTail(tag, tagInfo, makeReadOnly, cfg, io);
    assert WritesAsAsked(attached, tag, tagInfo, makeReadOnly, cfg);
    WritesAsAskedConcat(attached, FallbackTail(tag, tagInfo, makeReadOnly, cfg, io), tag, tagInfo, makeReadOnly, cfg);
  }

  lemma BuiltFormatPathWrites(tag: Tag, tagInfo: Option<TagInfo>, makeReadOnly: bool, cfg: Configuration, io: TagIo)
    requires tag.formatable && io.formatConnect.Done? && BuiltMessage(tagInfo, cfg).Ok?
    requires WritesAsAsked(FallbackTail(tag, tagInfo, makeReadOnly, cfg, io), tag, tagInfo, makeReadOnly, cfg)
    ensures WritesAsAsked(FormatPath(tag, tagInfo, makeReadOnly, cfg, io).actions, tag, tagInfo, makeReadOnly, cfg)
  {
    var formatted := [Connect(FormatableT)] + [Format(BuiltMessage(tagInfo, cfg).value, makeReadOnly)];
    assert WritesAsAsked(formatted, tag, tagInfo, makeReadOnly, cfg);
    if io.format.Threw? && io.format.e.kind != TagLostKind && io.format.e.kind != FormatKind {
      assert FormatPath(tag, tagInfo, makeReadOnly, cfg, io).actions == formatted + FallbackTail(tag, tagInfo, makeReadOnly, cfg, io);
      WritesAsAskedConcat(formatted, FallbackTail(tag, tagInfo, makeReadOnly, cfg, io), tag, tagInfo, makeReadOnly, cfg);
    } else {
      assert FormatPath(tag, tagInfo, makeReadOnly, cfg, io).actions == formatted;
    }
  }

  /** The write block of the Ndef path: build the message, write it, lock when asked. */
  function NdefWrite(tagInfo: Option<TagInfo>, makeReadOnly: bool, cfg: Configuration, io: TagIo): (leg: Leg)
    ensures leg.events == []
    ensures BuiltMessage(tagInfo, cfg).Err? ==>
              leg.actions == [] && leg.failure == Some(WriteFailed(BuildFailed(BuiltMessage(tagInfo, cfg).error)))
    ensures BuiltMessage(tagInfo, cfg).Ok? ==>
              |leg.actions| > 0 && leg.actions[0] == WriteNdef(BuiltMessage(tagInfo, cfg).value)
    ensures MakeReadOnly in leg.actions <==> BuiltMessage(tagInfo, cfg).Ok? && io.ndefWrite.Done? && makeReadOnly
    ensures leg.failure.None? <==>
              BuiltMessage(tagInfo, cfg).Ok? && io.ndefWrite.Done? && (makeReadOnly ==> io.ndefLock.LockReturned?)
    ensures BuiltMessage(tagInfo, cfg).Ok? && io.ndefWrite.Threw? ==> leg.failure == Some(CaughtWrite(io.ndefWrite.e))
    ensures BuiltMessage(tagInfo, cfg).Ok? && io.ndefWrite.Done? && makeReadOnly && io.ndefLock.LockThrew? ==>
              leg.failure == Some(CaughtWrite(io.ndefLock.e))
    ensures forall i :: 0 <= i < |leg.actions| ==> !leg.actions[i].Format?
    ensures !NoWrite(leg.actions) ==> BuiltMessage(tagInfo, cfg).Ok? && WritesOnly(leg.actions, BuiltMessage(tagInfo, cfg).value)
  {
    match BuiltMessage(tagInfo, cfg)
    case Err(b) => Leg([], [], Some(WriteFailed(BuildFailed(b))))
    case Ok(m) =>
      match io.ndefWrite
      case Threw(e) => Leg([], [WriteNdef(m)], Some(CaughtWrite(e)))
      case Done =>
        if !makeReadOnly then Leg([], [WriteNdef(m)], None)
        else
          match io.ndefLock
          case LockThrew(e) => Leg([], [WriteNdef(m), MakeReadOnly], Some(CaughtWrite(e)))
          case LockReturned(_) => Leg([], [WriteNdef(m), MakeReadOnly], None)
  }

  /**
    The Ndef path: connect, return quietly after closing when the tag is not
    writable, otherwise run the write block and, in its finally clause, close
    and raise the connected notification a second time.
   */
  function NdefPath(n: NdefTech, tagInfo: Option<TagInfo>, makeReadOnly: bool, cfg: Configuration, io: TagIo): (leg: Leg)
    ensures |leg.actions| > 0 && leg.actions[0] == Connect(NdefT)
    ensures Lacks(leg.events, TagDisconnected)
    ensures io.ndefConnect.Threw? ==> leg == Leg([], [Connect(NdefT)], Some(NoTagNearby))
    ensures io.ndefConnect.Done? && !n.isWritable ==> leg == Leg([TagConnected], [Connect(NdefT), Close(NdefT)], None)
    ensures io.ndefConnect.Done? && n.isWritable ==>
              && leg.events == [TagConnected, TagConnected] && leg.actions[|leg.actions| - 1] == Close(NdefT)
              && leg.failure == NdefWrite(tagInfo, makeReadOnly, cfg, io).failure
    ensures forall i :: 0 <= i < |leg.actions| ==> !leg.actions[i].Format?
    ensures !NoWrite(leg.actions) ==> BuiltMessage(tagInfo, cfg).Ok? && WritesOnly(leg.actions, BuiltMessage(tagInfo, cfg).value)
    ensures MakeReadOnly in leg.actions ==> makeReadOnly
    ensures io.ndefConnect.Done? && n.isWritable && BuiltMessage(tagInfo, cfg).Ok? ==>
              && leg.actions[1] == WriteNdef(BuiltMessage(tagInfo, cfg).value)
              && (MakeReadOnly in leg.actions <==> io.ndefWrite.Done? && makeReadOnly)
  {
    if io.ndefConnect.Threw? then Leg([], [Connect(NdefT)], Some(NoTagNearby))
    else if !n.isWritable then Leg([TagConnected], [Connect(NdefT), Close(NdefT)], None)
    else
      var body := NdefWrite(tagInfo, makeReadOnly, cfg, io);
      Leg([TagConnected, TagConnected], [Connect(NdefT)] + body.actions + [Close(NdefT)], body.failure)
  }

  /** True when a held tag takes the format path: no Ndef, NdefFormatable listed. */
  predicate TakesFormatPath(s: NfcState)
  {
    s.currentTag.Some? && s.currentTag.value.ndef.None? && s.currentTag.value.listsFormatable
  }

  /** WriteMessageAndFormat. The state is returned unchanged: the tag stays held and write mode stays as it was. */
  function WriteMessageAndFormat(s: NfcState, tagInfo: Option<TagInfo>, makeReadOnly: bool,
                                 cfg: Configuration, io: TagIo): (r: PublishRun)
    ensures r.state == s
    ensures s.currentTag.None? ==> r.failure == Some(NoTag) && r.actions == [] && r.events == []
    ensures s.currentTag.Some? && s.currentTag.value.ndef.None? && !s.currentTag.value.listsFormatable ==>
              r.failure == Some(NotCompliant) && r.actions == [] && r.events == []
    ensures TakesFormatPath(s) && !s.currentTag.value.formatable ==>
              r.failure == Some(NotCompliant) && r.actions == []
    ensures TakesFormatPath(s) && s.currentTag.value.formatable ==>
              && |r.actions| > 0 && r.actions[0] == Connect(FormatableT)
              && (io.formatConnect.Done? ==> r.events == [TagConnected, TagDisconnected])
              && (io.formatConnect.Threw? ==> r.failure == Some(FormatConnectFailed) && r.events == [])
    ensures s.currentTag.Some? && s.currentTag.value.ndef.Some? ==>
              && |r.actions| > 0 && r.actions[0] == Connect(NdefT)
              && Lacks(r.events, TagDisconnected)
              && (io.ndefConnect.Threw? ==> r.failure == Some(NoTagNearby))
              && (io.ndefConnect.Done? && !s.currentTag.value.ndef.value.isWritable ==>
                    r.failure.None? && r.events == [TagConnected] && NoWrite(r.actions))
              && (io.ndefConnect.Done? && s.currentTag.value.ndef.value.isWritable ==>
                    && r.events == [TagConnected, TagConnected]
                    && r.failure == NdefWrite(tagInfo, makeReadOnly, cfg, io).failure
                    && (r.failure.None? <==>
                          BuiltMessage(tagInfo, cfg).Ok? && io.ndefWrite.Done? && (makeReadOnly ==> io.ndefLock.LockReturned?)))
    ensures TakesFormatPath(s) && s.currentTag.value.formatable && io.formatConnect.Done? ==>
              && (BuiltMessage(tagInfo, cfg).Ok? && io.format.Done? ==> r.failure.None?)
              && (BuiltMessage(tagInfo, cfg).Ok? && io.format.Threw? &&
                  (io.format.e.kind == TagLostKind || io.format.e.kind == FormatKind) ==>
                    r.failure == Some(FormatInterrupted(io.format.e.message)))
              && (BuiltMessage(tagInfo, cfg).Err? ||
                  (io.format.Threw? && (io.format.e.kind == IoKind || io.format.e.kind == OtherKind)) ==>
                    (r.failure.Some? <==> io.formatClose.Threw?))
    ensures TakesFormatPath(s) && s.currentTag.value.formatable && io.formatConnect.Done? && BuiltMessage(tagInfo, cfg).Ok? ==>
              Format(BuiltMessage(tagInfo, cfg).value, makeReadOnly) in r.actions
    ensures s.currentTag.Some? && s.currentTag.value.ndef.Some? && io.ndefConnect.Done? &&
            s.currentTag.value.ndef.value.isWritable && BuiltMessage(tagInfo, cfg).Ok? ==>
              && WriteNdef(BuiltMessage(tagInfo, cfg).value) in r.actions
              && (MakeReadOnly in r.actions <==> io.ndefWrite.Done? && makeReadOnly)
  {
    if s.currentTag.None? then PublishRun(s, [], [], Some(NoTag))
    else
      var tag := s.currentTag.value;
      var leg :=
        match tag.ndef
        case None =>
          if !tag.listsFormatable then Leg([], [], Some(NotCompliant))
          else FormatPath(tag, tagInfo, makeReadOnly, cfg, io)
        case Some(n) => NdefPath(n, tagInfo, makeReadOnly, cfg, io);
      PublishRun(s, leg.events, leg.actions, leg.failure)
  }

  /**
    PublishMessage: WriteMessageAndFormat under its public name. Unlike
    WriteOrClearMessage, a failure here leaves write mode and the held tag as
    they were.
   */
  function PublishMessage(s: NfcState, tagInfo: Option<TagInfo>, makeReadOnly: bool,
                          cfg: Configuration, io: TagIo): (r: PublishRun)
    ensures r.state == s
    ensures s.currentTag.None? ==> r.failure == Some(NoTag)
  {
    WriteMessageAndFormat(s, tagInfo, makeReadOnly, cfg, io)
  }

  /** Every message written or formatted with is the one built from the tag info. */
  lemma WritesOnlyBuiltMessage(s: NfcState, tagInfo: Option<TagInfo>, makeReadOnly: bool, cfg: Configuration, io: TagIo)
    ensures var r := WriteMessageAndFormat(s, tagInfo, makeReadOnly, cfg, io);
      !NoWrite(r.actions) ==> BuiltMessage(tagInfo, cfg).Ok? && WritesOnly(r.actions, BuiltMessage(tagInfo, cfg).value)
  {
    if TakesFormatPath(s) {
      FormatPathWrites(s.currentTag.value, tagInfo, makeReadOnly, cfg, io);
    }
  }

  /** Locking, and formatting read-only, happen only when asked for. */
  lemma LocksOnlyWhenAsked(s: NfcState, tagInfo: Option<TagInfo>, makeReadOnly: bool, cfg: Configuration, io: TagIo)
    ensures var r := WriteMessageAndFormat(s, tagInfo, makeReadOnly, cfg, io);
      && (MakeReadOnly in r.actions ==> makeReadOnly)
      && forall i :: 0 <= i < |r.actions| && r.actions[i].Format? ==> r.actions[i].readOnly == makeReadOnly
  {
    if TakesFormatPath(s) {
      FormatPathWrites(s.currentTag.value, tagInfo, makeReadOnly, cfg, io);
    }
  }

  /**
    The format path never writes, locks or connects through Ndef: it is taken
    only when Ndef.Get gave no handle, and the bootstrap's retry asks the same
    tag again.
   */
  lemma FallbackNeverWritesThroughNdef(s: NfcState, tagInfo: Option<TagInfo>, makeReadOnly: bool, cfg: Configuration, io: TagIo)
    requires TakesFormatPath(s)
    ensures var r := WriteMessageAndFormat(s, tagInfo, makeReadOnly, cfg, io);
      forall i :: 0 <= i < |r.actions| ==>
        !r.actions[i].WriteNdef? && r.actions[i] != MakeReadOnly && r.actions[i] != Connect(NdefT)
  {
    FormatPathWrites(s.currentTag.value, tagInfo, makeReadOnly, cfg, io);
  }

  /**
    The Ultralight bootstrap swallows its failures: whether its Ndef
    connect, write and lock throw changes neither what the call throws nor
    what it raises. This holds by construction, since the bootstrap returns
    only the calls it made; on the format path as written those outcomes are
    never even reached, because the retry has no Ndef handle.
   */
  lemma FallbackFailuresAreSwallowed(s: NfcState, tagInfo: Option<TagInfo>, makeReadOnly: bool, cfg: Configuration,
                                     io: TagIo, reconnect: Step, fallbackWrite: Step, fallbackLock: Step)
    ensures var io' := io.(reconnect := reconnect, fallbackWrite := fallbackWrite, fallbackLock := fallbackLock);
      && WriteMessageAndFormat(s, tagInfo, makeReadOnly, cfg, io).failure == WriteMessageAndFormat(s, tagInfo, makeReadOnly, cfg, io').failure
      && WriteMessageAndFormat(s, tagInfo, makeReadOnly, cfg, io).events == WriteMessageAndFormat(s, tagInfo, makeReadOnly, cfg, io').events
  {
  }

  /**
    On an Ultralight tag whose format step fails with an I/O error, the call
    reports success although the message never reaches the tag: the format
    was attempted, and the bootstrap's retry finds no Ndef handle, so nothing
    is written through Ndef.
   */
  lemma FallbackCannotCompleteWrite(s: NfcState, tagInfo: Option<TagInfo>, makeReadOnly: bool, cfg: Configuration, io: TagIo)
    requires TakesFormatPath(s) && s.currentTag.value.formatable
    requires UltralightCapable(s.currentTag.value)
    requires io.formatConnect.Done? && io.format.Threw? && io.format.e.kind == IoKind
    requires io.formatClose.Done? && io.reconnect.Done?
    requires BuiltMessage(tagInfo, cfg).Ok?
    ensures var r := WriteMessageAndFormat(s, tagInfo, makeReadOnly, cfg, io);
      && r.failure.None?
      && Format(BuiltMessage(tagInfo, cfg).value, makeReadOnly) in r.actions
      && WriteNdef(BuiltMessage(tagInfo, cfg).value) !in r.actions
  {
    var m := BuiltMessage(tagInfo, cfg).value;
    var tag := s.currentTag.value;
    var formatted := [Connect(FormatableT), Format(m, makeReadOnly)];
    var tail := UltralightFallback(tag, tagInfo, makeReadOnly, cfg, io);
    assert FormatPath(tag, tagInfo, makeReadOnly, cfg, io).actions == formatted + [Close(FormatableT)] + tail;
    assert (formatted + [Close(FormatableT)] + tail)[1] == Format(m, makeReadOnly);
  }

  /**
    On the same tag and outcomes, the intended bootstrap writes the message
    the format step could not, through the Ndef handle of the formatted tag.
   */
  lemma IntendedFallbackCompletesWrite(tag: Tag, formatted: NdefTech, tagInfo: Option<TagInfo>, makeReadOnly: bool,
                                       cfg: Configuration, io: TagIo)
    requires UltralightCapable(tag) && tag.ndef.None?
    requires io.reconnect.Done? && BuiltMessage(tagInfo, cfg).Ok?
    ensures WriteNdef(BuiltMessage(tagInfo, cfg).value) in IntendedUltralightFallback(tag, formatted, tagInfo, makeReadOnly, cfg, io)
    ensures WriteNdef(BuiltMessage(tagInfo, cfg).value) !in UltralightFallback(tag, tagInfo, makeReadOnly, cfg, io)
  {
  }

  /**
    On the format path a message that cannot be built (a short language code,
    no record left, no tag info) ends in the fallback, where the second build
    fails too and is swallowed: the call reports no error and writes nothing.
   */
  lemma UnbuildableMessageIsSilentOnFormatPath(s: NfcState, tagInfo: Option<TagInfo>, makeReadOnly: bool,
                                               cfg: Configuration, io: TagIo)
    requires TakesFormatPath(s) && s.currentTag.value.formatable
    requires io.formatConnect.Done? && io.formatClose.Done?
    requires BuiltMessage(tagInfo, cfg).Err?
    ensures var r := WriteMessageAndFormat(s, tagInfo, makeReadOnly, cfg, io);
      r.failure.None? && NoWrite(r.actions)
  {
  }
}
